=== FILE: README.md ===
# Vasco da Gama RAG: chunking and answer assembly, in Dafny

This project models the text-handling core of a small retrieval-augmented
question-answering system about Clube de Regatas Vasco da Gama. It covers
both ends of the pipeline.

**Ingestion (`MarkdownChunker` and the tail of `DocumentIngester.ingest`).**
- A Markdown document is cut into heading-led sections. This is
  `re.split` on `(^#{1,6}\s+.+$)` under `re.MULTILINE`, followed by the
  grouping loop. Both regular expressions are modelled exactly, including
  the backtracking of `\s+` across line breaks.
- Every section longer than the chunk size is packed greedily, paragraph
  by paragraph, into running chunks. Each new chunk is seeded with the last
  `overlap` characters of the previous one.
- The non-blank pieces become chunks. Each is stripped and gets the id
  `source::chunk_<i>`, where `i` counts all pieces, blank ones included.
- No non-blank text is lost. Every short section, and every paragraph of
  a long one, ends up stripped inside some chunk (`DocumentKeepsText`).
- The chunks of all documents are concatenated. From them the four aligned
  lists handed to the vector store are built: ids, embeddings, texts and
  metadata.

**Answering (`VascoRAG`).**
- The store's raw query result is zipped into contexts.
- The fixed grounding prompt is built.
- The HTTP outcome of the generation call is classified into an answer or
  an error.
- `ask` returns "I don't know" without calling the generator when nothing
  was retrieved. Otherwise it returns the generator's answer with the
  deduplicated sources.

Modules:
- `Wrappers`: `Option`, `Result`.
- `Text`: Python's `str.strip`, `str.split`, `str.join` and decimal
  rendering, stated with their Python meaning.
- `Headers`: `_split_by_headers`.
- `Chunker`: `_split_by_paragraphs` and `chunk_document`.
- `Ingest`: the aggregation in `ingest`.
- `Prompt`: `build_prompt`.
- `Query`: result formatting, `call_ollama` classification and `ask`.

The source's loops are methods with loop invariants:
- `SplitByHeaders`, `PackParagraphs` (the loop of `SplitByParagraphs`),
  `ChunkDocument`, `Ingest`, `RetrieveContext`.

Each is proved equal to a specification function (`HeaderSections`,
`ParagraphChunks`, `DocumentChunks`, `CorpusChunks`, `Contexts`). The
properties are proved as lemmas about those functions.

The embedding model and the generator are function parameters (`embed`,
`generate`). The store's query result is an input value.

## Model

| member | source | states |
|---|---|---|
| Text.Strip | ingest/ingest_documents.py:67-69 | `str.strip()`: the result is no longer than the input and, when non-empty, neither starts nor ends with whitespace (Python's `isspace` set) |
| Text.StripSound | ingest/ingest_documents.py:67-69 | the stripped text is a contiguous piece of the input with only whitespace cut before and after it, and it is empty exactly when the input is all whitespace |
| Text.StripInfix | ingest/ingest_documents.py:67-69 | stripping keeps a non-blank piece inside the stripped whole: if `p` occurs in `x` and `p.strip()` is not empty, `p.strip()` occurs in `x.strip()` |
| Text.StripCuts | ingest/ingest_documents.py:67-69 | there is a place of the stripped text in the input with only whitespace before it and only whitespace after it |
| Text.StripFixes | ingest/ingest_documents.py:67-69 | a text without leading or trailing whitespace is its own stripped form |
| Text.SplitOn | ingest/ingest_documents.py:101 | `text.split('\n\n')`: at least one piece, joining the pieces with the separator gives the text back, and no piece contains the separator |
| Text.SplitOnLeftmost | ingest/ingest_documents.py:101 | the cuts are at the leftmost occurrences: every piece but the last, followed by the separator, holds its first occurrence of the separator right after the piece |
| Text.NatToString | ingest/ingest_documents.py:71 | the f-string rendering of the index is a non-empty digit string without a leading zero that denotes the index |
| Text.Join | api/query.py:121-124 | `sep.join(parts)`: the parts with one separator between neighbours (its places are `JoinPlaces`) |
| Text.JoinPlaces | api/query.py:121-124 | `sep.join(parts)` holds every part whole at its offset, in order, with exactly one separator between neighbours, and nothing after the last part |
| Headers.HeaderMatchAt | ingest/ingest_documents.py:79-80 | a heading match starts with `#` and ends at the end of its line (at a newline or the end of the text), after at least one character that is not a newline |
| Headers.GiveBackFinds | ingest/ingest_documents.py:80 | backtracking `\s+` before `.+` succeeds iff one of the whitespace characters after the first, or the one right after them, is not a newline |
| Headers.HeaderMatchIff | ingest/ingest_documents.py:79-80 | the heading pattern matches at a position iff it starts a line, one to six `#` follow, then whitespace, with a non-newline character among the whitespace after its first character or right after it |
| Headers.HeaderMatchEnd | ingest/ingest_documents.py:79-80 | a match ends where `.+` stops: `.+` starts at the last non-newline character the greedy `\s+` can give back, and every character from there to the end of the match is not a newline |
| Headers.NextHeader | ingest/ingest_documents.py:80 | the leftmost match at or after a position, with no match before it; none means no match anywhere after the position |
| Headers.OpensWithMarker | ingest/ingest_documents.py:86 | the definition of `re.match(r'^#{1,6}\s+', part)`: one to six `#` then a whitespace character |
| Headers.SplitFrom | ingest/ingest_documents.py:80 | `re.split` from a position: an odd number of parts that concatenate to the rest of the text, every captured part passing the marker test |
| Headers.MatchOpensWithMarker | ingest/ingest_documents.py:79-86 | every text the split pattern captures passes the weaker `^#{1,6}\s+` test of the loop |
| Headers.RegexSplit | ingest/ingest_documents.py:79-80 | `re.split` with one group: an odd number of parts that concatenate to the document, and every odd-position (captured) part passes the marker test (the parts are pinned down by `RegexSplitExact`) |
| Headers.SplitFromExact | ingest/ingest_documents.py:80 | from any position, each body part holds no match start (and the last one none up to the end) and each captured part is exactly the heading match at its offset |
| Headers.RegexSplitExact | ingest/ingest_documents.py:79-80 | the parts of `re.split` are exactly the leftmost heading matches and the text between them: even parts hold no position where the pattern matches (the last part none up to the end), odd parts are the match found at their offset, from its first to its last character |
| Headers.Close | ingest/ingest_documents.py:88-89 | the definition of closing a section: appended only when non-empty |
| Headers.Group | ingest/ingest_documents.py:85-95 | the definition of the loop over the parts: a marker part closes the section in progress and opens a new one with a newline; other parts extend it; the last one is closed at the end |
| Headers.HeaderSections | ingest/ingest_documents.py:82-97 | the definition of `_split_by_headers`: the grouped sections, or `[content]` when there are none (its properties are `HeaderSectionsSound`) |
| Headers.GroupText | ingest/ingest_documents.py:85-95 | the sections the loop builds concatenate to the parts with one `"\n"` added after each part that passes the marker test |
| Headers.HeaderSectionsSound | ingest/ingest_documents.py:82-97 | `_split_by_headers` never returns an empty list; the sections concatenate to the split parts with a newline after each header part; every section after the first opens with a header marker; no section is empty unless the document is |
| Headers.HeaderFreeIsOneSection | ingest/ingest_documents.py:94-97 | a document with no heading match that does not open with a marker is returned as the single section `[content]` |
| Headers.SplitByHeaders | ingest/ingest_documents.py:76-97 | the loop returns exactly `HeaderSections(content)`, non-empty, with the concatenation and later-sections-open properties |
| Chunker.OverlapSeed | ingest/ingest_documents.py:110 | `chunk[-overlap:]` under Python slicing: a suffix of the chunk; the last `overlap` characters when positive; the whole chunk when `overlap == 0`; the chunk minus `-overlap` leading characters when negative |
| Chunker.Flushes | ingest/ingest_documents.py:107 | the definition of the flush test: non-empty running chunk and lengths adding up to more than the chunk size |
| Chunker.Absorb | ingest/ingest_documents.py:107-112 | the definition of the running chunk after a paragraph: seed, separator and paragraph after a flush; otherwise the paragraph appended with a separator, or the paragraph alone when the chunk is empty |
| Chunker.Pack | ingest/ingest_documents.py:105-115 | the definition of the chunks the loop closes from a running chunk, the last one included when non-empty (its properties are the lemmas below) |
| Chunker.ParagraphChunks | ingest/ingest_documents.py:99-117 | the definition of `_split_by_paragraphs`: packing the pieces of `text.split('\n\n')` from an empty running chunk |
| Chunker.PackNonEmpty | ingest/ingest_documents.py:107-115 | no chunk `_split_by_paragraphs` emits is empty |
| Chunker.PackFirst | ingest/ingest_documents.py:107-112 | the chunk grown from a running chunk extends it, and it is either unchanged or at most `chunk_size + 2` long, because the size test ignores the separator |
| Chunker.PackFirstFromScratch | ingest/ingest_documents.py:105-115 | the first chunk is at most `chunk_size + 2` long or is exactly one (oversized) paragraph |
| Chunker.PackReseeds | ingest/ingest_documents.py:107-110 | each chunk after a flush begins with the overlap suffix of the previous chunk and `"\n\n"`, and is at most `chunk_size + 2` long or exactly that seed, the separator and the one paragraph whose flush test closed the previous chunk |
| Chunker.PackKeepsParagraph | ingest/ingest_documents.py:105-117 | no paragraph is split: each non-empty paragraph lies whole, however long, inside the one chunk it was taken into |
| Chunker.OwnerMonotone | ingest/ingest_documents.py:105-112 | chunks come out in paragraph order: a later paragraph never lands in an earlier chunk |
| Chunker.PackBlank | ingest/ingest_documents.py:105-115 | whitespace-only paragraphs give whitespace-only chunks |
| Chunker.ParagraphChunksSound | ingest/ingest_documents.py:99-117 | `_split_by_paragraphs` output is non-empty chunk by chunk, and every chunk after the first starts with the previous chunk's overlap seed and `"\n\n"` |
| Chunker.PackFromIsPack | ingest/ingest_documents.py:102-117 | running the loop from any point (chunks so far, running chunk) emits the chunks so far followed by what the paragraph packing gives from that running chunk |
| Chunker.PackParagraphs | ingest/ingest_documents.py:102-117 | the paragraph loop, with its flush test and its final flush, returns exactly `Pack(cfg, paragraphs, "")` |
| Chunker.SplitByParagraphs | ingest/ingest_documents.py:99-117 | the loop returns exactly `ParagraphChunks(cfg, text)`, with no empty chunk and the re-seeding prefix between neighbours |
| Chunker.ChunkId | ingest/ingest_documents.py:71 | the definition of `f"{source}::chunk_{i}"` (it is injective by `ChunkIdInjective`) |
| Chunker.ChunkIdInjective | ingest/ingest_documents.py:71 | `f"{source}::chunk_{i}"` determines both the source and the index |
| Chunker.FirstChunkId | ingest/ingest_documents.py:71 | the piece at index 0 gets the id `source + "::chunk_0"` |
| Chunker.SectionPieces | ingest/ingest_documents.py:57-62 | the definition of one section's pieces: the section itself when it fits the chunk size, else its paragraph chunks |
| Chunker.Pieces | ingest/ingest_documents.py:56-62 | the definition of the first loop: the pieces of every section, in order |
| Chunker.Stripped | ingest/ingest_documents.py:67-69 | one stripped text per piece, in order |
| Chunker.Label | ingest/ingest_documents.py:65-72 | the definition of the second loop: the non-empty stripped pieces, labelled with the source and their index among all pieces (its properties are `LabelKept` and the lemmas after it) |
| Chunker.DocumentChunks | ingest/ingest_documents.py:45-74 | the definition of `chunk_document`: header sections, then pieces, stripped and labelled |
| Chunker.KeptIncreasing | ingest/ingest_documents.py:66-67 | the indices of the kept (non-empty) stripped pieces are valid and strictly increasing |
| Chunker.KeptExactly | ingest/ingest_documents.py:66-67 | a stripped piece is kept iff it is non-empty |
| Chunker.LabelKept | ingest/ingest_documents.py:65-72 | chunk `k` is the `k`-th non-empty stripped piece with the id of that piece's index among ALL pieces, so ids may skip numbers |
| Chunker.LabelWellFormed | ingest/ingest_documents.py:67-70 | every chunk's text is non-empty and neither starts nor ends with whitespace, stripping it again changes nothing, and its source is the caller's |
| Chunker.PiecesHold | ingest/ingest_documents.py:56-62 | every piece a section contributes (the section itself, or its paragraph chunks) is among the document's pieces |
| Chunker.LabelCovers | ingest/ingest_documents.py:65-72 | every piece that is not blank becomes a chunk whose text is the piece stripped |
| Chunker.ParagraphCovered | ingest/ingest_documents.py:60-62 | every non-blank paragraph of a long section lies whole inside one of that section's paragraph chunks |
| Chunker.ShortSectionKept | ingest/ingest_documents.py:56-72 | a section that fits the chunk size and is not blank is, stripped, the text of one of the chunks |
| Chunker.ParagraphKept | ingest/ingest_documents.py:56-72 | every non-blank paragraph of a section over the chunk size is, stripped, part of the text of one of the chunks |
| Chunker.DocumentKeepsText | ingest/ingest_documents.py:45-74 | chunking keeps every non-blank text of the document: a short non-blank section is, stripped, the text of a chunk, and every non-blank paragraph of a longer section is, stripped, part of some chunk's text |
| Chunker.LabelIdsDistinct | ingest/ingest_documents.py:66-71 | no two chunks of a document share an id |
| Chunker.LabelSingle | ingest/ingest_documents.py:66-72 | one piece gives no chunk if blank, else one chunk with its stripped text and index 0 |
| Chunker.SmallHeaderFreeDocument | ingest/ingest_documents.py:54-72 | a header-free document no longer than the chunk size yields at most one chunk: the stripped document with id `source::chunk_0` |
| Chunker.BlankDocumentHasNoChunks | ingest/ingest_documents.py:54-72 | an empty or whitespace-only document yields no chunks |
| Chunker.ChunkDocument | ingest/ingest_documents.py:45-74 | the two loops return exactly `DocumentChunks(cfg, content, source)`, every chunk well formed, all ids distinct |
| Ingest.Texts | ingest/ingest_documents.py:205 | the embedder's input is the chunk texts, one per chunk, in order |
| Ingest.CorpusChunks | ingest/ingest_documents.py:194-197 | the definition of the chunking loop: every document's chunks, concatenated in document order |
| Ingest.Ingest | ingest/ingest_documents.py:189-219 | no documents is an error; otherwise the id, text and metadata lists have the corpus's length and entry `k` comes from chunk `k` of the concatenated per-document chunks, and the embeddings are the embedder's output on the texts |
| Ingest.Batch | ingest/ingest_documents.py:205-219 | entry `k` of the ids, texts and metadata lists comes from chunk `k`, the metadata holding exactly its source, and the embeddings are the embedder's output on the texts |
| Ingest.DocumentChunkOrigin | ingest/ingest_documents.py:66-71 | every chunk of a document carries that document's name and an id built from it |
| Ingest.CorpusChunkOrigin | ingest/ingest_documents.py:194-197 | every chunk of the corpus carries the name of one of the documents and an id built from that name |
| Ingest.CorpusIdsDistinct | ingest/ingest_documents.py:194-219 | with distinct file names, the ids handed to the store are pairwise distinct |
| Prompt.Block | api/query.py:122 | a context renders as `[Source: ` + source + `]\n` + text, with each piece at its position |
| Prompt.Blocks | api/query.py:121-124 | one block per context, in retrieval order |
| Prompt.ContextSection | api/query.py:121-124 | the definition of the context section: the blocks joined by `"\n\n"` (its places are `ContextSectionInOrder`) |
| Prompt.ContextSectionInOrder | api/query.py:121-124 | the context section holds every block whole at its offset, blocks in retrieval order, separated by exactly one `"\n\n"` |
| Prompt.Assemble | api/query.py:126-144 | the prompt layout (`Laid`): the preamble, `CONTEXT:\n`, the context section, `\n\nQUESTION: `, the question verbatim and `\n\nANSWER:`, each at its position, and nothing else |
| Prompt.BuildPrompt | api/query.py:121-144 | the prompt opens with the fixed instruction preamble (the constants `PreambleHead`, `AbstainRule` and `PreambleTail`, lines 126-136), then the context heading and the context section of the retrieved contexts, and ends with the question heading, the question verbatim and the answer cue |
| Prompt.AssembleKeepsPreamble | api/query.py:126-144 | whatever the preamble contains, the prompt contains at the same place |
| Prompt.PreambleQuotesIDontKnow | api/query.py:126-133 | instruction 5 of the preamble quotes the phrase "I don't know" |
| Prompt.PromptDemandsIDontKnow | api/query.py:133 | every prompt contains the phrase "I don't know" the model must answer with when the context lacks the answer |
| Prompt.AssembleInjective | api/query.py:126-144 | over one preamble, equal prompts with questions of equal length have equal questions and equal context sections |
| Prompt.PromptRecoversQuestion | api/query.py:137-142 | equal prompts for questions of equal length have equal questions and equal context sections |
| Prompt.AssembleAmbiguous | api/query.py:137-142 | without the question's length the prompt does not fix the question: a context section holding the question heading gives the same text as a question holding it |
| Query.SourceOf | api/query.py:98 | `metadata.get("source", "unknown")` |
| Query.Contexts | api/query.py:93-99 | no contexts when the first document row is missing or empty; otherwise one context per zipped (document, metadata) pair, as many as the shorter row, in order, with the "unknown" fallback; an error when there is no metadata row |
| Query.RetrieveContext | api/query.py:93-101 | the append loop returns exactly `Contexts(results)` |
| Query.Classify | api/query.py:173-191 | connection failure becomes the connection error; 404 the model-not-found error; other 4xx/5xx propagate with their status; any other transport error (a read timeout) propagates as the request error; success gives the `response` field stripped, or "" when absent; a good status with an undecodable body, a non-object body or a non-string `response` is the malformed-reply error |
| Query.GenerateRequest | api/query.py:160-171 | the definition of the payload: POST to `/api/generate` on the server's base URL with the model, the prompt and `stream` false |
| Query.AnswerIsStripped | api/query.py:178 | a generated answer has no leading or trailing whitespace |
| Query.ReplyAnswers | api/query.py:174-178 | a 200 reply whose `response` is a string answers that string stripped |
| Query.Distinct | api/query.py:219 | a duplicate-free list with exactly the elements of its input |
| Query.SourceList | api/query.py:219 | the contexts' sources, one per context |
| Query.AnswerSources | api/query.py:219 | the answer's sources: no duplicates, and exactly the sources of the retrieved contexts |
| Query.Ask | api/query.py:204-224 | no contexts: "I don't know" with no sources, whatever the generator; otherwise success, answer and error are the generator's outcome on the prompt for the question and contexts, and the sources are duplicate-free with exactly the contexts' sources as elements |
| Query.FoundingYearScenario | api/query.py:204-224 | one context from `history.md` and a generator answering "1898" give the answer "1898" with sources `["history.md"]` |
| Query.UnknownModelScenario | api/query.py:185-190 | a 404 from the generator makes `ask` fail with the model-not-found error |
| Query.AskQuestion | api/query.py:193-224 | `ask`: a formatting failure is the missing-metadata error; otherwise the result is `Ask` on the formatted contexts |

## Left out

- Embeddings: the sentence-transformer encoder is the function parameter `embed`. Floating-point vectors are not modelled.
- Vector store: ChromaDB setup, collection reset, `add` and the nearest-neighbour `query` (with `n_results = 5`) are not modelled. The store's query result is an input of `Query.Contexts`. The batch `Ingest.Ingest` returns is what would be passed to `add`.
- File loading: directory globbing and file reading are not modelled. The documents are an input. A missing data directory is not modelled. "No Markdown files" is the `NoMarkdownFiles` error of `Ingest.Ingest`.
- HTTP call: the request timeout and the sampling options (`temperature`, `top_p`, `top_k`) of `call_ollama`'s payload are not modelled. The URL, model, prompt and `stream` flag of the payload are `Query.Request`, built by `Query.GenerateRequest`. `generate` maps a request to a transport outcome. Error message texts are not modelled.
- Query.Classify: JSON values other than strings are one case (`JOther`). A non-string `response`, a non-object body and an undecodable body all end in `MalformedReply`. The source raises different Python exceptions for these.
- Query.Distinct: fixes one order: it keeps the last occurrence of each element, in input order. Python's `list(set(...))` leaves the order unspecified, so only "no duplicates" and "same elements" are claimed.
- Query.Contexts: metadata records are maps from strings to strings. Store entries without metadata (`None`) and non-string metadata values are not modelled. Neither is a `None` documents field.
- `VascoRAG.__init__`: store and collection lookup failures are not modelled. The model name is a parameter of `Query.Ask`. The default "gemma3:1b" of `api/query.py` is not modelled. The separate `config.py` names "llama3" but is not imported by the core, so the code's value is used.
- `api/main.py` (HTTP routing, request validation, CORS, logging), the command-line `main` functions, `quickstart.py`, `example_usage.py` and every `print` are not modelled.

=== FILE: chunker.dfy ===
/**
 * `MarkdownChunker`: a document is cut into heading sections, every section
 * longer than the chunk size is packed paragraph by paragraph into running
 * chunks, and the pieces that are not blank become chunks with the id
 * `source::chunk_<i>`, where `i` counts all pieces, the blank ones included.
 */
module Chunker {
  import opened Text
  import opened Headers

  /** The two fields of a `MarkdownChunker`; both are set at construction and
      only read afterwards. Python accepts any `int` for either. */
  datatype Config = Config(chunkSize: int, overlap: int)

  /** `CHUNK_SIZE` and `CHUNK_OVERLAP`, the defaults the ingester uses. */
  const DefaultConfig := Config(500, 100)

  /** One emitted chunk. */
  datatype Chunk = Chunk(text: string, source: string, chunkId: string)

  /** The paragraph separator of `text.split('\n\n')` and of the running chunk. */
  const Separator := "\n\n"

  /** `chunk[-overlap:]` under Python's slicing rules: the last `overlap`
      characters (all of them when there are fewer); the WHOLE chunk when
      `overlap == 0`, since `-0 == 0`; and the chunk minus its first `-overlap`
      characters when `overlap` is negative. */
  function OverlapSeed(chunk: string, overlap: int): (r: string)
    ensures |r| <= |chunk| && r == chunk[|chunk| - |r|..]
    ensures overlap > 0 ==> |r| == Min(overlap, |chunk|)
    ensures overlap == 0 ==> r == chunk
    ensures overlap < 0 ==> |r| == |chunk| - Min(-overlap, |chunk|)
  {
    var start := -overlap;
    var i := if start < 0 then (if |chunk| + start < 0 then 0 else |chunk| + start)
             else Min(start, |chunk|);
    chunk[i..]
  }

  /** The test of `_split_by_paragraphs`: the running chunk is closed before
      `para` when it is non-empty and the two lengths add up to more than the
      chunk size (the separator is not counted). */
  predicate Flushes(cfg: Config, current: string, para: string) {
    |current| + |para| > cfg.chunkSize && current != ""
  }

  /** The running chunk after `para` has been taken in. */
  function Absorb(cfg: Config, current: string, para: string): string {
    if Flushes(cfg, current, para) then OverlapSeed(current, cfg.overlap) + Separator + para
    else if current != "" then current + Separator + para
    else para
  }

  /** The chunks `_split_by_paragraphs` closes while it visits `paras` with
      `current` as the running chunk, the last running chunk included when it
      is non-empty. */
  function Pack(cfg: Config, paras: seq<string>, current: string): seq<string>
    decreases |paras|
  {
    if paras == [] then (if current != "" then [current] else [])
    else (if Flushes(cfg, current, paras[0]) then [current] else [])
         + Pack(cfg, paras[1..], Absorb(cfg, current, paras[0]))
  }

  /** What `_split_by_paragraphs(text)` returns. */
  function ParagraphChunks(cfg: Config, text: string): seq<string>
  {
    Pack(cfg, SplitOn(text, Separator), "")
  }

  lemma {:induction false} PackNonEmpty(cfg: Config, paras: seq<string>, current: string)
    ensures forall k :: 0 <= k < |Pack(cfg, paras, current)| ==> Pack(cfg, paras, current)[k] != ""
    decreases |paras|
  {
    if paras != [] {
      PackNonEmpty(cfg, paras[1..], Absorb(cfg, current, paras[0]));
    }
  }

  /** The first chunk packed from a non-empty running chunk extends it, and it
      is either that running chunk unchanged or at most two characters over the
      chunk size: a paragraph is appended only when the lengths fit, and the
      appended separator adds two. */
  lemma {:induction false} PackFirst(cfg: Config, paras: seq<string>, current: string)
    requires current != ""
    ensures |Pack(cfg, paras, current)| >= 1
    ensures current <= Pack(cfg, paras, current)[0]
    ensures |Pack(cfg, paras, current)[0]| <= cfg.chunkSize + 2 || Pack(cfg, paras, current)[0] == current
    decreases |paras|
  {
    if paras != [] {
      var next := Absorb(cfg, current, paras[0]);
      if !Flushes(cfg, current, paras[0]) {
        PackFirst(cfg, paras[1..], next);
        assert current <= next;
      }
    }
  }

  /** A chunk packed from scratch is short, or it is exactly one paragraph. */
  lemma {:induction false} PackFirstFromScratch(cfg: Config, paras: seq<string>)
    requires Pack(cfg, paras, "") != []
    ensures || |Pack(cfg, paras, "")[0]| <= cfg.chunkSize + 2
            || exists i :: 0 <= i < |paras| && Pack(cfg, paras, "")[0] == paras[i]
    decreases |paras|
  {
    var p := paras[0];
    var rest := paras[1..];
    if p == "" {
      PackFirstFromScratch(cfg, rest);
      if |Pack(cfg, paras, "")[0]| > cfg.chunkSize + 2 {
        var i :| 0 <= i < |rest| && Pack(cfg, rest, "")[0] == rest[i];
        assert rest[i] == paras[i + 1];
      }
    } else {
      PackFirst(cfg, rest, p);
    }
  }

  /** The relation between two consecutive chunks: the later begins with the
      overlap seed of the earlier and the separator, and it is either at most
      two characters over the chunk size or exactly that seed, the separator
      and the one paragraph that closed the earlier chunk. */
  predicate Reseeded(cfg: Config, paras: seq<string>, prev: string, next: string) {
    && OverlapSeed(prev, cfg.overlap) + Separator <= next
    && (|| |next| <= cfg.chunkSize + 2
        || exists i :: 0 <= i < |paras| && next == OverlapSeed(prev, cfg.overlap) + Separator + paras[i]
                       && Flushes(cfg, prev, paras[i]))
  }

  /** Flushing and re-seeding hold between every two consecutive chunks. */
  lemma {:induction false} PackReseeds(cfg: Config, paras: seq<string>, current: string)
    ensures forall k :: 0 <= k < |Pack(cfg, paras, current)| - 1 ==>
      Reseeded(cfg, paras, Pack(cfg, paras, current)[k], Pack(cfg, paras, current)[k + 1])
    decreases |paras|
  {
    if paras != [] {
      var p := paras[0];
      var rest := paras[1..];
      var next := Absorb(cfg, current, p);
      var tail := Pack(cfg, rest, next);
      var out := Pack(cfg, paras, current);
      PackReseeds(cfg, rest, next);
      var shift := if Flushes(cfg, current, p) then 1 else 0;
      assert out == (if Flushes(cfg, current, p) then [current] else []) + tail;
      forall k | 0 <= k < |out| - 1
        ensures Reseeded(cfg, paras, out[k], out[k + 1])
      {
        if shift == 1 && k == 0 {
          PackFirst(cfg, rest, next);
          assert out[1] == tail[0];
          assert next == OverlapSeed(current, cfg.overlap) + Separator + paras[0];
        } else {
          assert out[k] == tail[k - shift] && out[k + 1] == tail[k - shift + 1];
          assert Reseeded(cfg, rest, tail[k - shift], tail[k - shift + 1]);
          if |out[k + 1]| > cfg.chunkSize + 2 {
            var i :| 0 <= i < |rest| && tail[k - shift + 1] == OverlapSeed(tail[k - shift], cfg.overlap) + Separator + rest[i]
                     && Flushes(cfg, tail[k - shift], rest[i]);
            assert rest[i] == paras[i + 1];
          }
        }
      }
    }
  }

  /** The index of the chunk that paragraph `i` is taken into: the number of
      flushes up to and including that paragraph. */
  function Owner(cfg: Config, paras: seq<string>, current: string, i: nat): nat
    requires i < |paras|
    decreases i
  {
    (if Flushes(cfg, current, paras[0]) then 1 else 0)
    + (if i == 0 then 0 else Owner(cfg, paras[1..], Absorb(cfg, current, paras[0]), i - 1))
  }

  /** No paragraph is split: every non-empty paragraph lies whole inside the
      chunk it was taken into, however long it is. */
  lemma {:induction false} PackKeepsParagraph(cfg: Config, paras: seq<string>, current: string, i: nat)
    requires i < |paras| && paras[i] != ""
    ensures Owner(cfg, paras, current, i) < |Pack(cfg, paras, current)|
    ensures IsInfix(paras[i], Pack(cfg, paras, current)[Owner(cfg, paras, current, i)])
    decreases i
  {
    if i == 0 {
      var at := PackKeepsFirst(cfg, paras, current);
    } else {
      var next := Absorb(cfg, current, paras[0]);
      PackKeepsParagraph(cfg, paras[1..], next, i - 1);
      PackShift(cfg, paras, current, i);
    }
  }

  /** The first paragraph ends the running chunk it is absorbed into, and
      that chunk starts the chunks packed after it. */
  lemma PackKeepsFirst(cfg: Config, paras: seq<string>, current: string) returns (at: nat)
    requires paras != [] && paras[0] != ""
    ensures Owner(cfg, paras, current, 0) < |Pack(cfg, paras, current)|
    ensures InfixAt(paras[0], Pack(cfg, paras, current)[Owner(cfg, paras, current, 0)], at)
  {
    var p := paras[0];
    var next := Absorb(cfg, current, p);
    var tail := Pack(cfg, paras[1..], next);
    var shift := if Flushes(cfg, current, p) then 1 else 0;
    assert Pack(cfg, paras, current) == (if Flushes(cfg, current, p) then [current] else []) + tail;
    PackFirst(cfg, paras[1..], next);
    AbsorbEndsWith(cfg, current, p);
    at := |next| - |p|;
    assert tail[0][at..at + |p|] == next[at..];
    assert Owner(cfg, paras, current, 0) == shift && Pack(cfg, paras, current)[shift] == tail[0];
  }

  /** Paragraph `i > 0` lands in the chunk of the packing of the remaining
      paragraphs, shifted by the flush before the first paragraph. */
  lemma PackShift(cfg: Config, paras: seq<string>, current: string, i: nat)
    requires 0 < i < |paras|
    requires Owner(cfg, paras[1..], Absorb(cfg, current, paras[0]), i - 1) < |Pack(cfg, paras[1..], Absorb(cfg, current, paras[0]))|
    ensures Owner(cfg, paras, current, i) < |Pack(cfg, paras, current)|
    ensures paras[1..][i - 1] == paras[i]
    ensures Pack(cfg, paras, current)[Owner(cfg, paras, current, i)]
      == Pack(cfg, paras[1..], Absorb(cfg, current, paras[0]))[Owner(cfg, paras[1..], Absorb(cfg, current, paras[0]), i - 1)]
  {
    var next := Absorb(cfg, current, paras[0]);
    var tail := Pack(cfg, paras[1..], next);
    var shift := if Flushes(cfg, current, paras[0]) then 1 else 0;
    assert Pack(cfg, paras, current) == (if Flushes(cfg, current, paras[0]) then [current] else []) + tail;
    var o := Owner(cfg, paras[1..], next, i - 1);
    assert Owner(cfg, paras, current, i) == shift + o;
  }

  /** The running chunk ends with the paragraph just taken in. */
  lemma AbsorbEndsWith(cfg: Config, current: string, para: string)
    ensures |para| <= |Absorb(cfg, current, para)|
    ensures Absorb(cfg, current, para)[|Absorb(cfg, current, para)| - |para|..] == para
  {
  }

  /** Chunks come out in paragraph order: a later paragraph is never taken
      into an earlier chunk. */
  lemma {:induction false} OwnerMonotone(cfg: Config, paras: seq<string>, current: string, i: nat, j: nat)
    requires i <= j < |paras|
    ensures Owner(cfg, paras, current, i) <= Owner(cfg, paras, current, j)
    decreases i
  {
    if i > 0 {
      OwnerMonotone(cfg, paras[1..], Absorb(cfg, current, paras[0]), i - 1, j - 1);
    }
  }

  lemma {:induction false} PackBlank(cfg: Config, paras: seq<string>, current: string)
    requires Blank(current)
    requires forall i :: 0 <= i < |paras| ==> Blank(paras[i])
    ensures forall k :: 0 <= k < |Pack(cfg, paras, current)| ==> Blank(Pack(cfg, paras, current)[k])
    decreases |paras|
  {
    if paras != [] {
      var next := Absorb(cfg, current, paras[0]);
      assert Blank(Separator);
      assert Blank(OverlapSeed(current, cfg.overlap));
      PackBlank(cfg, paras[1..], next);
    }
  }

  /** What `_split_by_paragraphs` promises about its output. */
  lemma ParagraphChunksSound(cfg: Config, text: string)
    ensures forall k :: 0 <= k < |ParagraphChunks(cfg, text)| ==> ParagraphChunks(cfg, text)[k] != ""
    ensures forall k :: 0 <= k < |ParagraphChunks(cfg, text)| - 1 ==>
      OverlapSeed(ParagraphChunks(cfg, text)[k], cfg.overlap) + Separator <= ParagraphChunks(cfg, text)[k + 1]
  {
    PackNonEmpty(cfg, SplitOn(text, Separator), "");
    PackReseeds(cfg, SplitOn(text, Separator), "");
  }

  /** `Pack` with the chunks closed so far carried along, as the loop keeps
      them. */
  function PackFrom(cfg: Config, paras: seq<string>, chunks: seq<string>, current: string): seq<string>
    decreases |paras|
  {
    if paras == [] then chunks + (if current != "" then [current] else [])
    else PackFrom(cfg, paras[1..], chunks + (if Flushes(cfg, current, paras[0]) then [current] else []),
                  Absorb(cfg, current, paras[0]))
  }

  lemma {:induction false} PackFromIsPack(cfg: Config, paras: seq<string>, chunks: seq<string>, current: string)
    ensures PackFrom(cfg, paras, chunks, current) == chunks + Pack(cfg, paras, current)
    decreases |paras|
  {
    if paras == [] {
      assert Pack(cfg, paras, current) == if current != "" then [current] else [];
    } else {
      var flush := if Flushes(cfg, current, paras[0]) then [current] else [];
      var next := Absorb(cfg, current, paras[0]);
      var tail := Pack(cfg, paras[1..], next);
      PackFromIsPack(cfg, paras[1..], chunks + flush, next);
      assert PackFrom(cfg, paras, chunks, current) == PackFrom(cfg, paras[1..], chunks + flush, next);
      assert Pack(cfg, paras, current) == flush + tail;
      ConcatAssoc(chunks, flush, tail);
    }
  }

  lemma PackFromStep(cfg: Config, paras: seq<string>, i: nat, chunks: seq<string>, current: string)
    requires i < |paras|
    ensures PackFrom(cfg, paras[i..], chunks, current)
      == PackFrom(cfg, paras[i + 1..], chunks + (if Flushes(cfg, current, paras[i]) then [current] else []),
                  Absorb(cfg, current, paras[i]))
  {
    assert paras[i..][1..] == paras[i + 1..];
  }

  /** The loop of `_split_by_paragraphs` over the paragraphs, with its final
      flush. */
  method PackParagraphs(cfg: Config, paragraphs: seq<string>) returns (chunks: seq<string>)
    ensures chunks == Pack(cfg, paragraphs, "")
  {
    chunks := [];
    var current := "";
    for i := 0 to |paragraphs|
      invariant PackFrom(cfg, paragraphs[i..], chunks, current) == PackFrom(cfg, paragraphs, [], "")
    {
      var para := paragraphs[i];
      ghost var before, running := chunks, current;
      PackFromStep(cfg, paragraphs, i, chunks, current);
      if |current| + |para| > cfg.chunkSize && current != "" {
        chunks := chunks + [current];
        current := OverlapSeed(current, cfg.overlap) + Separator + para;
      } else {
        current := if current != "" then current + Separator + para else para;
        assert chunks == before + [];
      }
      assert current == Absorb(cfg, running, para);
    }
    assert paragraphs[|paragraphs|..] == [];
    ghost var closed := chunks;
    if current != "" {
      chunks := chunks + [current];
    } else {
      assert chunks == closed + [];
    }
    PackFromIsPack(cfg, paragraphs, [], "");
    assert [] + Pack(cfg, paragraphs, "") == Pack(cfg, paragraphs, "");
  }

  /** `_split_by_paragraphs`: split on blank lines, then pack. */
  method SplitByParagraphs(cfg: Config, text: string) returns (chunks: seq<string>)
    ensures chunks == ParagraphChunks(cfg, text)
    ensures forall k :: 0 <= k < |chunks| ==> chunks[k] != ""
    ensures forall k :: 0 <= k < |chunks| - 1 ==> OverlapSeed(chunks[k], cfg.overlap) + Separator <= chunks[k + 1]
  {
    var paragraphs := SplitOn(text, Separator);
    chunks := PackParagraphs(cfg, paragraphs);
    ParagraphChunksSound(cfg, text);
  }

  /** The id of the piece at index `i` of a document: `f"{source}::chunk_{i}"`. */
  function ChunkId(source: string, i: nat): string
  {
    source + "::chunk_" + NatToString(i)
  }

  /** The digits of an id are the run after its last `_`, so two equal ids
      carry digit runs of the same length. */
  lemma ChunkIdDigitsAgree(s1: string, n1: nat, s2: string, n2: nat)
    requires ChunkId(s1, n1) == ChunkId(s2, n2)
    ensures |NatToString(n1)| >= |NatToString(n2)|
  {
    var d1, d2 := NatToString(n1), NatToString(n2);
    var id := ChunkId(s1, n1);
    assert id == (s1 + "::chunk_") + d1 == (s2 + "::chunk_") + d2;
    var k := |id| - |d1| - 1;
    assert id[k] == '_';
  }

  /** Ids determine their source and their index: `::chunk_` is followed by
      digits only, so no two (source, index) pairs share an id. */
  lemma ChunkIdInjective(s1: string, n1: nat, s2: string, n2: nat)
    requires ChunkId(s1, n1) == ChunkId(s2, n2)
    ensures s1 == s2 && n1 == n2
  {
    ChunkIdDigitsAgree(s1, n1, s2, n2);
    ChunkIdDigitsAgree(s2, n2, s1, n1);
    var d1, d2 := NatToString(n1), NatToString(n2);
    var id := ChunkId(s1, n1);
    assert id == (s1 + "::chunk_") + d1 == (s2 + "::chunk_") + d2;
    assert d1 == id[|id| - |d1|..] == d2;
    assert s1 + "::chunk_" == id[..|id| - |d1|] == s2 + "::chunk_";
    assert s1 == (s1 + "::chunk_")[..|s1|];
    assert s2 == (s2 + "::chunk_")[..|s2|];
  }

  /** The pieces one section contributes: itself when it is short enough,
      otherwise its paragraph chunks. */
  function SectionPieces(cfg: Config, section: string): seq<string>
  {
    if |section| <= cfg.chunkSize then [section] else ParagraphChunks(cfg, section)
  }

  /** The piece list `chunk_document` builds before filtering. */
  function Pieces(cfg: Config, sections: seq<string>): seq<string>
  {
    if sections == [] then []
    else Pieces(cfg, sections[..|sections| - 1]) + SectionPieces(cfg, sections[|sections| - 1])
  }

  /** The pieces once stripped (`chunk_text.strip()`), position by position. */
  function Stripped(pieces: seq<string>): (r: seq<string>)
    ensures |r| == |pieces| && forall i :: 0 <= i < |r| ==> r[i] == Strip(pieces[i])
  {
    seq(|pieces|, i requires 0 <= i < |pieces| => Strip(pieces[i]))
  }

  /** The chunks made from the stripped pieces: every one that is not empty,
      with the id of its index in the unfiltered list. */
  function Label(source: string, texts: seq<string>): seq<Chunk>
  {
    if texts == [] then []
    else
      var i := |texts| - 1;
      Label(source, texts[..i]) + (if texts[i] != "" then [Chunk(texts[i], source, ChunkId(source, i))] else [])
  }

  /** What `chunk_document(content, source)` returns. */
  function DocumentChunks(cfg: Config, content: string, source: string): seq<Chunk>
  {
    Label(source, Stripped(Pieces(cfg, HeaderSections(content))))
  }

  /** The indices of the non-empty texts, in order. */
  function Kept(texts: seq<string>): seq<nat>
  {
    if texts == [] then []
    else
      var i := |texts| - 1;
      Kept(texts[..i]) + (if texts[i] != "" then [i] else [])
  }

  /** `Kept` lists indices of texts, in increasing order. */
  lemma {:induction false} KeptIncreasing(texts: seq<string>)
    ensures forall k :: 0 <= k < |Kept(texts)| ==> Kept(texts)[k] < |texts|
    ensures forall k, l :: 0 <= k < l < |Kept(texts)| ==> Kept(texts)[k] < Kept(texts)[l]
  {
    if texts != [] {
      var i := |texts| - 1;
      var front := texts[..i];
      KeptIncreasing(front);
      var kf := Kept(front);
      if texts[i] != "" {
        assert Kept(texts) == kf + [i];
      } else {
        assert Kept(texts) == kf;
      }
    }
  }

  /** `Kept` lists exactly the non-empty texts. */
  lemma {:induction false} KeptExactly(texts: seq<string>)
    ensures forall i :: 0 <= i < |texts| ==> (texts[i] != "" <==> i in Kept(texts))
  {
    if texts != [] {
      var i := |texts| - 1;
      var front := texts[..i];
      KeptIncreasing(front);
      KeptExactly(front);
      var kf := Kept(front);
      var tail: seq<nat> := if texts[i] != "" then [i] else [];
      assert Kept(texts) == kf + tail;
      assert texts[i] != "" <==> i in kf + tail;
      forall j | 0 <= j < i ensures texts[j] != "" <==> j in kf + tail {
        assert texts[j] == front[j];
        assert j !in tail;
      }
    }
  }

  /** Chunk `k` is the `k`-th non-empty text, with the id of that text's
      position among ALL pieces, so ids may skip numbers. */
  lemma {:induction false} LabelKept(source: string, texts: seq<string>)
    ensures |Label(source, texts)| == |Kept(texts)|
    ensures forall k :: 0 <= k < |Kept(texts)| ==>
      && Kept(texts)[k] < |texts|
      && Label(source, texts)[k] == Chunk(texts[Kept(texts)[k]], source, ChunkId(source, Kept(texts)[k]))
  {
    KeptIncreasing(texts);
    if texts != [] {
      var i := |texts| - 1;
      var front := texts[..i];
      LabelKept(source, front);
      var lf, kf := Label(source, front), Kept(front);
      if texts[i] != "" {
        assert Label(source, texts) == lf + [Chunk(texts[i], source, ChunkId(source, i))];
        assert Kept(texts) == kf + [i];
      } else {
        assert Label(source, texts) == lf;
        assert Kept(texts) == kf;
      }
      forall k | 0 <= k < |kf| ensures texts[kf[k]] == front[kf[k]] { }
    }
  }

  /** What `chunk_document` promises of each chunk: its text is not empty
      and neither starts nor ends with whitespace, and its source is the
      document's. */
  predicate WellFormed(c: Chunk, source: string)
  {
    c.text != [] && !IsSpace(c.text[0]) && !IsSpace(c.text[|c.text| - 1]) && c.source == source
  }

  /** Every chunk is well formed, and its text is already stripped:
      stripping it again changes nothing. */
  lemma {:induction false} LabelWellFormed(source: string, pieces: seq<string>)
    ensures forall k :: 0 <= k < |Label(source, Stripped(pieces))| ==>
      WellFormed(Label(source, Stripped(pieces))[k], source)
    ensures forall k :: 0 <= k < |Label(source, Stripped(pieces))| ==>
      Strip(Label(source, Stripped(pieces))[k].text) == Label(source, Stripped(pieces))[k].text
  {
    var texts := Stripped(pieces);
    var out := Label(source, texts);
    LabelKept(source, texts);
    KeptExactly(texts);
    forall k | 0 <= k < |out| ensures WellFormed(out[k], source) {
      var j := Kept(texts)[k];
      assert j in Kept(texts);
      assert out[k].text == Strip(pieces[j]) != "";
    }
    forall k | 0 <= k < |out| ensures Strip(out[k].text) == out[k].text {
      var j := Kept(texts)[k];
      assert out[k].text == Strip(pieces[j]);
      StripIdempotent(pieces[j]);
    }
  }

  /** No two chunks of one document share an id. */
  lemma LabelIdsDistinct(source: string, texts: seq<string>)
    ensures forall k, l :: 0 <= k < l < |Label(source, texts)| ==>
      Label(source, texts)[k].chunkId != Label(source, texts)[l].chunkId
  {
    var out := Label(source, texts);
    var kept := Kept(texts);
    LabelKept(source, texts);
    KeptIncreasing(texts);
    forall k, l | 0 <= k < l < |out| ensures out[k].chunkId != out[l].chunkId {
      assert out[k].chunkId == ChunkId(source, kept[k]);
      assert out[l].chunkId == ChunkId(source, kept[l]);
      if out[k].chunkId == out[l].chunkId {
        ChunkIdInjective(source, kept[k], source, kept[l]);
      }
    }
  }

  lemma {:induction false} LabelEmpty(source: string, texts: seq<string>)
    requires forall i :: 0 <= i < |texts| ==> texts[i] == ""
    ensures Label(source, texts) == []
  {
    if texts != [] {
      LabelEmpty(source, texts[..|texts| - 1]);
    }
  }

  /** The first piece of a document has the id `{source}::chunk_0`. */
  lemma FirstChunkId(source: string)
    ensures ChunkId(source, 0) == source + "::chunk_0"
  {
    assert NatToString(0) == "0";
  }

  /** A single piece gives one chunk with index 0, unless it is blank. */
  lemma LabelSingle(source: string, piece: string)
    ensures Label(source, Stripped([piece]))
      == if Strip(piece) == "" then [] else [Chunk(Strip(piece), source, ChunkId(source, 0))]
  {
    var t := Strip(piece);
    var texts := Stripped([piece]);
    assert texts == [t] && texts[..0] == [];
    assert Label(source, texts) == Label(source, []) + (if t != "" then [Chunk(t, source, ChunkId(source, 0))] else []);
  }

  /** A document in which the heading pattern matches nowhere, that does not
      open with a marker and that fits the chunk size gives at most one chunk:
      the stripped document, with index 0 (`FirstChunkId`). */
  lemma SmallHeaderFreeDocument(cfg: Config, content: string, source: string)
    requires NextHeader(content, 0).None? && !OpensWithMarker(content)
    requires |content| <= cfg.chunkSize
    ensures DocumentChunks(cfg, content, source)
      == if Strip(content) == "" then [] else [Chunk(Strip(content), source, ChunkId(source, 0))]
  {
    HeaderFreeIsOneSection(content);
    assert [content][..0] == [];
    assert Pieces(cfg, [content]) == Pieces(cfg, []) + SectionPieces(cfg, content);
    assert Pieces(cfg, [content]) == [content];
    assert DocumentChunks(cfg, content, source) == Label(source, Stripped([content]));
    LabelSingle(source, content);
  }

  /** A blank document, the empty one included, gives no chunks at all. */
  lemma BlankDocumentHasNoChunks(cfg: Config, content: string, source: string)
    requires Blank(content)
    ensures DocumentChunks(cfg, content, source) == []
  {
    forall p | 0 <= p <= |content| ensures HeaderMatchAt(content, p).None? { }
    assert NextHeader(content, 0).None?;
    assert !OpensWithMarker(content);
    HeaderFreeIsOneSection(content);
    PiecesStep(cfg, [content], 0);
    assert [content][..1] == [content] && [content][..0] == [];
    var pieces := SectionPieces(cfg, content);
    assert Pieces(cfg, [content]) == pieces;
    if |content| > cfg.chunkSize {
      SplitOnBlank(content, Separator);
      PackBlank(cfg, SplitOn(content, Separator), "");
    }
    var texts := Stripped(pieces);
    forall i | 0 <= i < |texts| ensures texts[i] == "" {
      StripSound(pieces[i]);
    }
    LabelEmpty(source, texts);
  }

  /** Every piece a section contributes is among the document's pieces. */
  lemma {:induction false} PiecesHold(cfg: Config, sections: seq<string>, section: string, piece: string)
    requires section in sections && piece in SectionPieces(cfg, section)
    ensures piece in Pieces(cfg, sections)
    decreases |sections|
  {
    var i := |sections| - 1;
    var front := sections[..i];
    assert Pieces(cfg, sections) == Pieces(cfg, front) + SectionPieces(cfg, sections[i]);
    if section != sections[i] {
      var m :| 0 <= m < |sections| && sections[m] == section;
      assert front[m] == section;
      PiecesHold(cfg, front, section, piece);
    }
  }

  /** Every piece that is not blank becomes a chunk whose text is the piece
      stripped. */
  lemma LabelCovers(source: string, pieces: seq<string>, piece: string) returns (k: nat)
    requires piece in pieces && Strip(piece) != ""
    ensures k < |Label(source, Stripped(pieces))| && Label(source, Stripped(pieces))[k].text == Strip(piece)
  {
    var texts := Stripped(pieces);
    var j :| 0 <= j < |pieces| && pieces[j] == piece;
    assert texts[j] == Strip(piece) != "";
    assert j in Kept(texts) by {
      KeptExactly(texts);
    }
    k :| 0 <= k < |Kept(texts)| && Kept(texts)[k] == j;
    assert k < |Label(source, texts)| && Label(source, texts)[k].text == texts[j] by {
      LabelKept(source, texts);
    }
  }

  /** Every paragraph of a section that is not blank lies, once stripped,
      inside one of the section's paragraph chunks. */
  lemma ParagraphCovered(cfg: Config, section: string, para: string) returns (piece: string)
    requires para in SplitOn(section, Separator) && Strip(para) != ""
    ensures piece in ParagraphChunks(cfg, section) && IsInfix(para, piece)
  {
    var paras := SplitOn(section, Separator);
    var i :| 0 <= i < |paras| && paras[i] == para;
    PackKeepsParagraph(cfg, paras, "", i);
    piece := Pack(cfg, paras, "")[Owner(cfg, paras, "", i)];
  }

  /** A short section that is not blank is, stripped, the text of a chunk. */
  lemma ShortSectionKept(cfg: Config, sections: seq<string>, source: string, s: string) returns (k: nat)
    requires s in sections && |s| <= cfg.chunkSize && Strip(s) != ""
    ensures k < |Label(source, Stripped(Pieces(cfg, sections)))|
    ensures Label(source, Stripped(Pieces(cfg, sections)))[k].text == Strip(s)
  {
    PiecesHold(cfg, sections, s, s);
    k := LabelCovers(source, Pieces(cfg, sections), s);
  }

  /** A non-blank paragraph of a long section is, stripped, part of a
      chunk's text. */
  lemma ParagraphKept(cfg: Config, sections: seq<string>, source: string, s: string, p: string) returns (k: nat)
    requires s in sections && |s| > cfg.chunkSize && p in SplitOn(s, Separator) && Strip(p) != ""
    ensures k < |Label(source, Stripped(Pieces(cfg, sections)))|
    ensures IsInfix(Strip(p), Label(source, Stripped(Pieces(cfg, sections)))[k].text)
  {
    var piece := ParagraphCovered(cfg, s, p);
    PiecesHold(cfg, sections, s, piece);
    k := LabelCovers(source, Pieces(cfg, sections), piece);
    StripInfix(p, piece);
  }

  /** Chunking keeps every non-blank text of the document: a short section
      that is not blank is, stripped, the text of a chunk, and every non-blank
      paragraph of a longer section is, stripped, part of a chunk's text. */
  lemma DocumentKeepsText(cfg: Config, content: string, source: string)
    ensures forall s :: s in HeaderSections(content) && |s| <= cfg.chunkSize && Strip(s) != "" ==>
      exists k :: 0 <= k < |DocumentChunks(cfg, content, source)| &&
        DocumentChunks(cfg, content, source)[k].text == Strip(s)
    ensures forall s, p ::
      (s in HeaderSections(content) && |s| > cfg.chunkSize && p in SplitOn(s, Separator) && Strip(p) != "") ==>
        exists k :: 0 <= k < |DocumentChunks(cfg, content, source)| &&
          IsInfix(Strip(p), DocumentChunks(cfg, content, source)[k].text)
  {
    var sections := HeaderSections(content);
    var out := DocumentChunks(cfg, content, source);
    assert out == Label(source, Stripped(Pieces(cfg, sections)));
    forall s | s in sections && |s| <= cfg.chunkSize && Strip(s) != ""
      ensures exists k :: 0 <= k < |out| && out[k].text == Strip(s)
    {
      var k := ShortSectionKept(cfg, sections, source, s);
    }
    forall s, p | s in sections && |s| > cfg.chunkSize && p in SplitOn(s, Separator) && Strip(p) != ""
      ensures exists k :: 0 <= k < |out| && IsInfix(Strip(p), out[k].text)
    {
      var k := ParagraphKept(cfg, sections, source, s, p);
    }
  }

  lemma PiecesStep(cfg: Config, sections: seq<string>, i: nat)
    requires i < |sections|
    ensures Pieces(cfg, sections[..i + 1]) == Pieces(cfg, sections[..i]) + SectionPieces(cfg, sections[i])
  {
    assert sections[..i + 1][..i] == sections[..i];
  }

  lemma LabelStep(source: string, texts: seq<string>, i: nat)
    requires i < |texts|
    ensures Label(source, texts[..i + 1]) == Label(source, texts[..i])
      + (if texts[i] != "" then [Chunk(texts[i], source, ChunkId(source, i))] else [])
  {
    assert texts[..i + 1][..i] == texts[..i];
  }

  /** `chunk_document` as the source writes it: a loop over the sections that
      collects the pieces, then a loop over the pieces that strips them, skips
      the blank ones and numbers the rest by their position among all pieces. */
  method ChunkDocument(cfg: Config, content: string, source: string) returns (result: seq<Chunk>)
    ensures result == DocumentChunks(cfg, content, source)
    ensures forall k :: 0 <= k < |result| ==> WellFormed(result[k], source)
    ensures forall k, l :: 0 <= k < l < |result| ==> result[k].chunkId != result[l].chunkId
  {
    var sections := SplitByHeaders(content);
    var chunks := [];
    for i := 0 to |sections|
      invariant chunks == Pieces(cfg, sections[..i])
    {
      var section := sections[i];
      PiecesStep(cfg, sections, i);
      if |section| <= cfg.chunkSize {
        chunks := chunks + [section];
      } else {
        var more := SplitByParagraphs(cfg, section);
        chunks := chunks + more;
      }
    }
    assert sections[..|sections|] == sections;
    ghost var texts := Stripped(chunks);
    result := [];
    for i := 0 to |chunks|
      invariant result == Label(source, texts[..i])
    {
      var chunkText := chunks[i];
      LabelStep(source, texts, i);
      if Strip(chunkText) != "" {
        result := result + [Chunk(Strip(chunkText), source, ChunkId(source, i))];
      }
    }
    assert texts[..|chunks|] == texts;
    LabelWellFormed(source, chunks);
    LabelIdsDistinct(source, texts);
  }
}

=== FILE: headers.dfy ===
/**
 * The first stage of the Markdown chunker: cutting a document into sections
 * that each start at a heading.
 *
 * The source splits with Python's `re.split` on the pattern `(^#{1,6}\s+.+$)`
 * under `re.MULTILINE`, which yields body text at even positions and heading
 * matches at odd positions, and then walks the parts, re-testing each with the
 * weaker `re.match(r'^#{1,6}\s+', part)`. Both regular expressions are modelled
 * exactly, including the backtracking of `\s+`, which may run across a line
 * break.
 */
module Headers {
  import opened Wrappers
  import opened Text

  /** `^` under `re.MULTILINE`: the text starts at `p` or a newline precedes it. */
  predicate AtLineStart(s: string, p: nat)
    requires p <= |s|
  {
    p == 0 || s[p - 1] == '\n'
  }

  /** A character that `.` matches (anything but a newline). */
  predicate LineCharAt(s: string, i: int) {
    0 <= i < |s| && s[i] != '\n'
  }

  /** Length of the run of `#` starting at `p`. */
  function HashRun(s: string, p: nat): (n: nat)
    requires p <= |s|
    ensures p + n <= |s|
    ensures forall k :: p <= k < p + n ==> s[k] == '#'
    ensures p + n == |s| || s[p + n] != '#'
    decreases |s| - p
  {
    if p < |s| && s[p] == '#' then 1 + HashRun(s, p + 1) else 0
  }

  /** Length of the run of whitespace starting at `p` (what a greedy `\s+` takes). */
  function SpaceRun(s: string, p: nat): (n: nat)
    requires p <= |s|
    ensures p + n <= |s|
    ensures forall k :: p <= k < p + n ==> IsSpace(s[k])
    ensures p + n == |s| || !IsSpace(s[p + n])
    decreases |s| - p
  {
    if p < |s| && IsSpace(s[p]) then 1 + SpaceRun(s, p + 1) else 0
  }

  /** Length of the run of non-newline characters starting at `p` (a greedy `.+`). */
  function LineRun(s: string, p: nat): (n: nat)
    requires p <= |s|
    ensures p + n <= |s|
    ensures forall k :: p <= k < p + n ==> LineCharAt(s, k)
    ensures p + n == |s| || s[p + n] == '\n'
    decreases |s| - p
  {
    if p < |s| && s[p] != '\n' then 1 + LineRun(s, p + 1) else 0
  }

  /** The backtracking of `\s+` before `.+`: having taken `j` whitespace characters
      after position `q`, the regex engine gives characters back until the next
      one is matched by `.`. The result is the largest such count in `1..j`. */
  function GiveBack(s: string, q: nat, j: nat): (r: Option<nat>)
    ensures r.Some? ==> 1 <= r.value <= j && LineCharAt(s, q + r.value)
    ensures r.Some? ==> forall i :: q + r.value < i <= q + j ==> !LineCharAt(s, i)
    ensures r.None? ==> forall i :: q < i <= q + j ==> !LineCharAt(s, i)
    decreases j
  {
    if j == 0 then None
    else if LineCharAt(s, q + j) then Some(j)
    else GiveBack(s, q, j - 1)
  }

  /** Where the heading pattern `^#{1,6}\s+.+$` matches when the engine tries
      position `p`, as the end of the match: a match starts with `#` and ends
      at the end of its line (`HeaderMatchIff` says when there is one). */
  function HeaderMatchAt(s: string, p: nat): (r: Option<nat>)
    requires p <= |s|
    ensures r.Some? ==> p < r.value <= |s| && s[p] == '#'
    ensures r.Some? ==> LineCharAt(s, r.value - 1) && (r.value == |s| || s[r.value] == '\n')
  {
    if !AtLineStart(s, p) then None
    else
      var h := HashRun(s, p);
      if h < 1 || 6 < h then None
      else
        var q := p + h;
        match GiveBack(s, q, SpaceRun(s, q))
        case None => None
        case Some(j) =>
          var n := LineRun(s, q + j);
          assert LineCharAt(s, q + j);
          Some(q + j + n)
  }

  /** The backtracking finds a character for `.` exactly when one of the
      whitespace characters after the first, or the one right after them, is
      not a newline. */
  lemma GiveBackFinds(s: string, q: nat, j: nat)
    ensures GiveBack(s, q, j).Some? <==> exists i :: q < i <= q + j && LineCharAt(s, i)
  {
    if GiveBack(s, q, j).Some? {
      assert LineCharAt(s, q + GiveBack(s, q, j).value);
    }
  }

  /** The heading pattern matches at `p` exactly when `p` starts a line, one
      to six `#` follow (a seventh `#` defeats `\s`), then whitespace, and some
      character of that whitespace after the first, or the one just after it,
      is not a newline. */
  lemma HeaderMatchIff(s: string, p: nat)
    requires p <= |s|
    ensures HeaderMatchAt(s, p).Some? <==>
      && AtLineStart(s, p)
      && 1 <= HashRun(s, p) <= 6
      && exists i :: p + HashRun(s, p) < i <= p + HashRun(s, p) + SpaceRun(s, p + HashRun(s, p))
                    && LineCharAt(s, i)
  {
    if AtLineStart(s, p) && 1 <= HashRun(s, p) <= 6 {
      var q := p + HashRun(s, p);
      GiveBackFinds(s, q, SpaceRun(s, q));
    }
  }

  /** Where a match ends: `.+` starts at the last character of the
      whitespace run (or the one right after it) that is not a newline, as the
      greedy `\s+` gives back as little as it can, and runs to the end of that
      line with no newline in between. */
  lemma HeaderMatchEnd(s: string, p: nat)
    requires p <= |s| && HeaderMatchAt(s, p).Some?
    ensures var q := p + HashRun(s, p);
      var w := q + SpaceRun(s, q);
      var e := HeaderMatchAt(s, p).value;
      exists st :: q < st <= w && st < e && LineCharAt(s, st)
        && (forall k :: st < k <= w ==> !LineCharAt(s, k))
        && (forall k :: st <= k < e ==> LineCharAt(s, k))
  {
    var q := p + HashRun(s, p);
    var w := q + SpaceRun(s, q);
    var j := GiveBack(s, q, SpaceRun(s, q)).value;
    var st := q + j;
    var e := HeaderMatchAt(s, p).value;
    assert e == st + LineRun(s, st);
    assert forall k :: st < k <= w ==> !LineCharAt(s, k);
    assert forall k :: st <= k < e ==> LineCharAt(s, k);
    assert q < st <= w && st < e && LineCharAt(s, st);
  }

  /** The leftmost heading match at or after `from`, as its start and end:
      `re.split` resumes its search where the previous match ended. */
  function NextHeader(s: string, from: nat): (r: Option<(nat, nat)>)
    requires from <= |s|
    ensures r.Some? ==> from <= r.value.0 <= |s| && HeaderMatchAt(s, r.value.0) == Some(r.value.1)
    ensures r.Some? ==> forall k :: from <= k < r.value.0 ==> HeaderMatchAt(s, k).None?
    ensures r.None? ==> forall k :: from <= k <= |s| ==> HeaderMatchAt(s, k).None?
    decreases |s| - from
  {
    var m := HeaderMatchAt(s, from);
    if m.Some? then Some((from, m.value))
    else if from == |s| then None
    else
      var r := NextHeader(s, from + 1);
      assert forall k :: from <= k < from + 1 ==> HeaderMatchAt(s, k) == m;
      r
  }

  /** `re.match(r'^#{1,6}\s+', part)`: the part opens with one to six `#`
      followed by a whitespace character. */
  predicate OpensWithMarker(part: string) {
    var h := HashRun(part, 0);
    1 <= h <= 6 && h < |part| && IsSpace(part[h])
  }

  /** A run of `#` is determined by the characters around it. */
  lemma {:induction false} HashRunUnique(t: string, i: nat, n: nat)
    requires i + n <= |t|
    requires forall k :: i <= k < i + n ==> t[k] == '#'
    requires i + n == |t| || t[i + n] != '#'
    ensures HashRun(t, i) == n
    decreases n
  {
    if n > 0 {
      HashRunUnique(t, i + 1, n - 1);
    }
  }

  /** Whether a text opens with a marker depends only on its first characters. */
  lemma OpensWithMarkerExtend(a: string, b: string)
    requires OpensWithMarker(a)
    ensures OpensWithMarker(a + b)
  {
    var h := HashRun(a, 0);
    HashRunUnique(a + b, 0, h);
  }

  /** Every heading match passes the weaker marker test the loop applies. */
  lemma MatchOpensWithMarker(s: string, p: nat, e: nat)
    requires p <= |s| && HeaderMatchAt(s, p) == Some(e)
    ensures OpensWithMarker(s[p..e])
  {
    var h := HashRun(s, p);
    var t := s[p..e];
    HeaderMatchIff(s, p);
    assert p + h < e by {
      var i :| p + h < i <= p + h + SpaceRun(s, p + h) && LineCharAt(s, i);
      assert IsSpace(s[p + h]);
    }
    HashRunUnique(t, 0, h);
  }

  /** `re.split` with one capturing group, from position `from` on: body text
      at even positions, heading matches at odd positions. */
  function SplitFrom(s: string, from: nat): (parts: seq<string>)
    requires from <= |s|
    ensures |parts| % 2 == 1
    ensures Flatten(parts) == s[from..]
    ensures forall i :: 0 <= i < |parts| && i % 2 == 1 ==> OpensWithMarker(parts[i])
    decreases |s| - from
  {
    match NextHeader(s, from)
    case None => [s[from..]]
    case Some((p, e)) =>
      MatchOpensWithMarker(s, p, e);
      var rest := SplitFrom(s, e);
      PrependMatch(s, from, p, e, rest);
      [s[from..p], s[p..e]] + rest
  }

  lemma PrependMatch(s: string, from: nat, p: nat, e: nat, rest: seq<string>)
    requires from <= p < e <= |s|
    requires OpensWithMarker(s[p..e])
    requires |rest| % 2 == 1 && Flatten(rest) == s[e..]
    requires forall i :: 0 <= i < |rest| && i % 2 == 1 ==> OpensWithMarker(rest[i])
    ensures var parts := [s[from..p], s[p..e]] + rest;
      && |parts| % 2 == 1
      && Flatten(parts) == s[from..]
      && forall i :: 0 <= i < |parts| && i % 2 == 1 ==> OpensWithMarker(parts[i])
  {
    var parts := [s[from..p], s[p..e]] + rest;
    assert parts[1..] == [s[p..e]] + rest;
    assert parts[1..][1..] == rest;
    calc {
      Flatten(parts);
      s[from..p] + Flatten(parts[1..]);
      s[from..p] + (s[p..e] + Flatten(rest));
      { assert s[from..] == s[from..p] + s[p..e] + s[e..]; }
      s[from..];
    }
    forall i | 0 <= i < |parts| && i % 2 == 1 ensures OpensWithMarker(parts[i]) {
      if i > 1 {
        assert parts[i] == rest[i - 2];
      }
    }
  }

  /** `re.split(r'(^#{1,6}\s+.+$)', content, flags=re.MULTILINE)`. */
  function RegexSplit(content: string): (parts: seq<string>)
    ensures |parts| % 2 == 1
    ensures Flatten(parts) == content
    ensures forall i :: 0 <= i < |parts| && i % 2 == 1 ==> OpensWithMarker(parts[i])
  {
    assert content[0..] == content;
    SplitFrom(content, 0)
  }

  /** Where part `i` starts, counted from the start of the split text. */
  function PartStart(parts: seq<string>, i: nat): nat
    requires i <= |parts|
  {
    |Flatten(parts[..i])|
  }

  /** Part `i` of a split of `s` from `base` is a heading match: one starts
      where the part starts and ends where it ends. */
  predicate MatchPart(s: string, parts: seq<string>, base: nat, i: nat)
    requires i < |parts|
  {
    var o := base + PartStart(parts, i);
    o + |parts[i]| <= |s| && HeaderMatchAt(s, o) == Some(o + |parts[i]|)
  }

  /** Part `i` of a split of `s` from `base` is text between matches: no
      heading match starts inside it, and none starts anywhere from it on
      when it is the last part. */
  predicate BodyPart(s: string, parts: seq<string>, base: nat, i: nat)
    requires i < |parts|
  {
    var o := base + PartStart(parts, i);
    && o + |parts[i]| <= |s|
    && NoMatchIn(s, o, o + |parts[i]|)
    && (i == |parts| - 1 ==> NoMatchIn(s, o, |s| + 1))
  }

  /** No heading match starts at a position in `lo..hi` (exclusive). */
  predicate NoMatchIn(s: string, lo: nat, hi: nat)
    requires hi <= |s| + 1
  {
    forall k :: lo <= k < hi ==> HeaderMatchAt(s, k).None?
  }

  /** Body part `2 * j` and the match after it are exactly what `re.split`
      cuts from `from` on. */
  lemma {:induction false} SplitFromExact(s: string, from: nat, j: nat)
    requires from <= |s| && 2 * j < |SplitFrom(s, from)|
    ensures BodyPart(s, SplitFrom(s, from), from, 2 * j)
    ensures 2 * j + 1 < |SplitFrom(s, from)| ==> MatchPart(s, SplitFrom(s, from), from, 2 * j + 1)
    decreases |s| - from
  {
    var parts := SplitFrom(s, from);
    var m := NextHeader(s, from);
    if m.None? {
      assert parts == [s[from..]] && parts[..0] == [];
    } else {
      var p, e := m.value.0, m.value.1;
      var rest := SplitFrom(s, e);
      SplitFromStep(s, from, p, e);
      assert parts[2..] == rest;
      if j == 0 {
        FirstBodyPart(s, parts, from, p);
        PartStartOne(parts);
        FirstMatchPart(s, parts, from, p, e);
      } else {
        SplitFromExact(s, e, j - 1);
        PartStartShift(parts, rest, 2 * j, 2 * (j - 1));
        BodyShift(s, parts, rest, from, e, 2 * j, 2 * (j - 1));
        if 2 * j + 1 < |parts| {
          PartStartShift(parts, rest, 2 * j + 1, 2 * (j - 1) + 1);
          MatchShift(s, parts, rest, from, e, 2 * j + 1, 2 * (j - 1) + 1);
        }
      }
    }
  }

  lemma SplitFromStep(s: string, from: nat, p: nat, e: nat)
    requires from <= |s| && NextHeader(s, from) == Some((p, e))
    ensures from <= p < e <= |s| && NoMatchIn(s, from, p) && HeaderMatchAt(s, p) == Some(e)
    ensures SplitFrom(s, from) == [s[from..p], s[p..e]] + SplitFrom(s, e)
  {
  }

  lemma FirstBodyPart(s: string, parts: seq<string>, from: nat, p: nat)
    requires |parts| >= 3 && from + |parts[0]| == p <= |s|
    requires NoMatchIn(s, from, p)
    ensures BodyPart(s, parts, from, 0)
  {
    assert parts[..0] == [];
  }

  lemma FirstMatchPart(s: string, parts: seq<string>, from: nat, p: nat, e: nat)
    requires |parts| >= 3 && from + PartStart(parts, 1) == p && p + |parts[1]| == e <= |s|
    requires HeaderMatchAt(s, p) == Some(e)
    ensures MatchPart(s, parts, from, 1)
  {
  }

  lemma BodyShift(s: string, parts: seq<string>, rest: seq<string>, from: nat, e: nat, i: nat, ir: nat)
    requires |parts| == |rest| + 2 && parts[2..] == rest && i == ir + 2 < |parts|
    requires from + PartStart(parts, i) == e + PartStart(rest, ir)
    requires BodyPart(s, rest, e, ir)
    ensures BodyPart(s, parts, from, i)
  {
    assert parts[i] == rest[ir];
  }

  lemma MatchShift(s: string, parts: seq<string>, rest: seq<string>, from: nat, e: nat, i: nat, ir: nat)
    requires |parts| == |rest| + 2 && parts[2..] == rest && i == ir + 2 < |parts|
    requires from + PartStart(parts, i) == e + PartStart(rest, ir)
    requires MatchPart(s, rest, e, ir)
    ensures MatchPart(s, parts, from, i)
  {
    assert parts[i] == rest[ir];
  }

  lemma PartStartOne(parts: seq<string>)
    requires |parts| >= 1
    ensures PartStart(parts, 1) == |parts[0]|
  {
    assert parts[..1] == [parts[0]];
    assert Flatten([parts[0]]) == parts[0] + Flatten([]);
  }

  /** Putting a body part and a match in front shifts every later part by
      their length. */
  lemma PartStartShift(parts: seq<string>, rest: seq<string>, i: nat, ir: nat)
    requires |parts| == |rest| + 2 && parts[2..] == rest && i == ir + 2 <= |parts|
    ensures PartStart(parts, i) == |parts[0]| + |parts[1]| + PartStart(rest, ir)
  {
    assert parts[..i] == [parts[0], parts[1]] + rest[..ir];
    FlattenConcat([parts[0], parts[1]], rest[..ir]);
    assert [parts[0], parts[1]][1..] == [parts[1]];
    assert Flatten([parts[0], parts[1]]) == parts[0] + (parts[1] + Flatten([]));
  }

  /** The parts of `re.split` are exactly the leftmost heading matches and
      the text between them: even parts hold no match start (and nothing
      matches after the last one), odd parts are matches from their first to
      their last character. */
  lemma RegexSplitExact(content: string, j: nat)
    requires 2 * j < |RegexSplit(content)|
    ensures BodyPart(content, RegexSplit(content), 0, 2 * j)
    ensures 2 * j + 1 < |RegexSplit(content)| ==> MatchPart(content, RegexSplit(content), 0, 2 * j + 1)
  {
    assert content[0..] == content;
    SplitFromExact(content, 0, j);
  }

  /** The loop appends the section in progress only when it is non-empty. */
  function Close(closed: seq<string>, current: string): seq<string>
  {
    if current != "" then closed + [current] else closed
  }

  /** The walk of `_split_by_headers` over the parts still to visit, given the
      sections already closed and the section in progress. */
  function Group(parts: seq<string>, closed: seq<string>, current: string): seq<string>
    decreases |parts|
  {
    if parts == [] then Close(closed, current)
    else if OpensWithMarker(parts[0]) then Group(parts[1..], Close(closed, current), parts[0] + "\n")
    else Group(parts[1..], closed, current + parts[0])
  }

  /** What `_split_by_headers` returns: the grouped sections, or `[content]`
      when there are none. */
  function HeaderSections(content: string): seq<string>
  {
    var g := Group(RegexSplit(content), [], "");
    if g == [] then [content] else g
  }

  /** The parts joined back, with the newline the loop adds after every part
      that passes the marker test. */
  function Marked(parts: seq<string>): string
  {
    if parts == [] then ""
    else (if OpensWithMarker(parts[0]) then parts[0] + "\n" else parts[0]) + Marked(parts[1..])
  }

  lemma CloseText(closed: seq<string>, current: string)
    ensures Flatten(Close(closed, current)) == Flatten(closed) + current
  {
    if current != "" {
      FlattenConcat(closed, [current]);
      assert Flatten([current]) == current + Flatten<char>([]);
    }
  }

  lemma {:induction false} GroupText(parts: seq<string>, closed: seq<string>, current: string)
    ensures Flatten(Group(parts, closed, current)) == Flatten(closed) + current + Marked(parts)
    decreases |parts|
  {
    CloseText(closed, current);
    if parts != [] {
      var p := parts[0];
      var rest := parts[1..];
      if OpensWithMarker(p) {
        GroupText(rest, Close(closed, current), p + "\n");
        assert Group(parts, closed, current) == Group(rest, Close(closed, current), p + "\n");
        assert Marked(parts) == (p + "\n") + Marked(rest);
        ConcatAssoc(Flatten(closed) + current, p + "\n", Marked(rest));
      } else {
        GroupText(rest, closed, current + p);
        assert Group(parts, closed, current) == Group(rest, closed, current + p);
        assert Marked(parts) == p + Marked(rest);
        ConcatAssoc(Flatten(closed), current, p);
        ConcatAssoc(Flatten(closed) + current, p, Marked(rest));
      }
    }
  }

  lemma {:induction false} GroupNonEmpty(parts: seq<string>, closed: seq<string>, current: string)
    requires forall k :: 0 <= k < |closed| ==> closed[k] != ""
    ensures forall k :: 0 <= k < |Group(parts, closed, current)| ==> Group(parts, closed, current)[k] != ""
    decreases |parts|
  {
    if parts != [] {
      var p := parts[0];
      if OpensWithMarker(p) {
        GroupNonEmpty(parts[1..], Close(closed, current), p + "\n");
      } else {
        GroupNonEmpty(parts[1..], closed, current + p);
      }
    }
  }

  /** Once one section is closed, every later section starts with a marker part. */
  predicate LaterSectionsOpen(closed: seq<string>, current: string) {
    && (forall k :: 1 <= k < |closed| ==> OpensWithMarker(closed[k]))
    && (closed != [] ==> OpensWithMarker(current))
  }

  lemma {:induction false} GroupOpens(parts: seq<string>, closed: seq<string>, current: string)
    requires LaterSectionsOpen(closed, current)
    ensures forall k :: 1 <= k < |Group(parts, closed, current)| ==> OpensWithMarker(Group(parts, closed, current)[k])
    decreases |parts|
  {
    if parts == [] {
    } else {
      var p := parts[0];
      if OpensWithMarker(p) {
        OpensWithMarkerExtend(p, "\n");
        GroupOpens(parts[1..], Close(closed, current), p + "\n");
      } else {
        if closed != [] {
          OpensWithMarkerExtend(current, p);
        }
        GroupOpens(parts[1..], closed, current + p);
      }
    }
  }

  lemma {:induction false} MarkedEmpty(parts: seq<string>)
    requires Marked(parts) == ""
    ensures Flatten(parts) == ""
  {
    if parts != [] {
      MarkedEmpty(parts[1..]);
    }
  }

  /** The promises of `_split_by_headers`: it never returns an empty list; joined
      back, the sections are the document with one newline after every part
      that passes the marker test; every section after the first opens with a
      marker; and no section is empty unless the document is. */
  lemma HeaderSectionsSound(content: string)
    ensures |HeaderSections(content)| >= 1
    ensures Flatten(HeaderSections(content)) == Marked(RegexSplit(content))
    ensures forall k :: 1 <= k < |HeaderSections(content)| ==> OpensWithMarker(HeaderSections(content)[k])
    ensures content != "" ==> forall k :: 0 <= k < |HeaderSections(content)| ==> HeaderSections(content)[k] != ""
  {
    var parts := RegexSplit(content);
    var g := Group(parts, [], "");
    GroupText(parts, [], "");
    GroupNonEmpty(parts, [], "");
    GroupOpens(parts, [], "");
    if g == [] {
      MarkedEmpty(parts);
    }
  }

  /** A document in which the heading pattern matches nowhere and that does not
      open with a marker is a single section. */
  lemma HeaderFreeIsOneSection(content: string)
    requires NextHeader(content, 0).None? && !OpensWithMarker(content)
    ensures HeaderSections(content) == [content]
  {
    var parts := RegexSplit(content);
    assert content[0..] == content;
    assert SplitFrom(content, 0) == [content];
    assert parts == [content] && parts[1..] == [];
    assert "" + content == content;
    assert Group(parts, [], "") == Group([], [], "" + content) == Close([], content);
  }

  /** `_split_by_headers` as the source writes it: the loop over the parts of
      `re.split`, closing a section at every part that passes the marker test. */
  method SplitByHeaders(content: string) returns (sections: seq<string>)
    ensures sections == HeaderSections(content)
    ensures |sections| >= 1
    ensures Flatten(sections) == Marked(RegexSplit(content))
    ensures forall k :: 1 <= k < |sections| ==> OpensWithMarker(sections[k])
  {
    var parts := RegexSplit(content);
    sections := [];
    var current := "";
    var i := 0;
    while i < |parts|
      invariant 0 <= i <= |parts|
      invariant Group(parts[i..], sections, current) == Group(parts, [], "")
    {
      var part := parts[i];
      assert parts[i..][1..] == parts[i + 1..];
      if OpensWithMarker(part) {
        if current != "" {
          sections := sections + [current];
        }
        current := part + "\n";
      } else {
        current := current + part;
      }
      i := i + 1;
    }
    if current != "" {
      sections := sections + [current];
    }
    if sections == [] {
      sections := [content];
    }
    HeaderSectionsSound(content);
  }
}

=== FILE: ingest.dfy ===
/**
 * The pure tail of the ingestion pipeline: the chunks of every loaded document
 * are concatenated in document order, and the store receives four aligned
 * lists built from them (ids, embeddings, texts, metadata). The embedding
 * model is a function parameter; loading files and writing to the store are
 * outside the model.
 */
module Ingest {
  import opened Wrappers
  import opened Text
  import opened Headers
  import opened Chunker

  /** A loaded Markdown file: its text and its file name. */
  datatype Document = Document(content: string, source: string)

  /** Loading found no Markdown file, so nothing is ingested. */
  datatype IngestError = NoMarkdownFiles

  /** The four lists handed to the store's `add`. */
  datatype IndexBatch<V> = IndexBatch(
    ids: seq<string>,
    embeddings: seq<V>,
    documents: seq<string>,
    metadatas: seq<map<string, string>>)

  /** The chunks of all documents, document after document, with the default
      chunk size and overlap. */
  function CorpusChunks(docs: seq<Document>): seq<Chunk>
  {
    if docs == [] then []
    else
      var d := docs[|docs| - 1];
      CorpusChunks(docs[..|docs| - 1]) + DocumentChunks(DefaultConfig, d.content, d.source)
  }

  /** The texts of the chunks, in order (what the embedder receives). */
  function Texts(chunks: seq<Chunk>): (r: seq<string>)
    ensures |r| == |chunks| && forall k :: 0 <= k < |r| ==> r[k] == chunks[k].text
  {
    seq(|chunks|, k requires 0 <= k < |chunks| => chunks[k].text)
  }

  /** Entry `k` of every list of the batch comes from chunk `k`: its id, its
      text and a metadata record holding exactly its source. */
  predicate Aligned<V>(batch: IndexBatch<V>, chunks: seq<Chunk>)
  {
    && |batch.ids| == |batch.documents| == |batch.metadatas| == |chunks|
    && forall k :: 0 <= k < |chunks| ==>
      && batch.ids[k] == chunks[k].chunkId
      && batch.documents[k] == chunks[k].text
      && batch.metadatas[k] == map["source" := chunks[k].source]
  }

  /** The ingestion run: no documents is an error; otherwise the documents
      are chunked one after the other and the aligned lists are built, the
      embeddings being whatever `embed` makes of the texts. */
  method Ingest<V>(docs: seq<Document>, embed: seq<string> -> seq<V>) returns (r: Result<IndexBatch<V>, IngestError>)
    ensures r.Failure? <==> docs == []
    ensures r.Success? ==> Aligned(r.value, CorpusChunks(docs))
    ensures r.Success? ==> r.value.embeddings == embed(Texts(CorpusChunks(docs)))
  {
    if docs == [] {
      return Failure(NoMarkdownFiles);
    }
    var allChunks := [];
    for i := 0 to |docs|
      invariant allChunks == CorpusChunks(docs[..i])
    {
      var doc := docs[i];
      CorpusStep(docs, i);
      var chunks := ChunkDocument(DefaultConfig, doc.content, doc.source);
      allChunks := allChunks + chunks;
    }
    assert docs[..|docs|] == docs;
    r := Success(Batch(allChunks, embed));
  }

  /** The four lists handed to the store: the chunk ids, the embeddings of the
      chunk texts, the texts, and one `{"source": …}` record per chunk. */
  function Batch<V>(chunks: seq<Chunk>, embed: seq<string> -> seq<V>): (b: IndexBatch<V>)
    ensures Aligned(b, chunks)
    ensures b.embeddings == embed(Texts(chunks))
  {
    var texts := Texts(chunks);
    var ids := seq(|chunks|, k requires 0 <= k < |chunks| => chunks[k].chunkId);
    var metadatas := seq(|chunks|, k requires 0 <= k < |chunks| => map["source" := chunks[k].source]);
    IndexBatch(ids, embed(texts), texts, metadatas)
  }

  lemma CorpusStep(docs: seq<Document>, i: nat)
    requires i < |docs|
    ensures CorpusChunks(docs[..i + 1])
      == CorpusChunks(docs[..i]) + DocumentChunks(DefaultConfig, docs[i].content, docs[i].source)
  {
    assert docs[..i + 1][..i] == docs[..i];
  }

  /** The names of a list of documents are those of all but the last, plus
      the last one's. */
  lemma SourcesStep(docs: seq<Document>)
    requires docs != []
    ensures Sources(docs) == Sources(docs[..|docs| - 1]) + {docs[|docs| - 1].source}
  {
    var front := docs[..|docs| - 1];
    assert docs == front + [docs[|docs| - 1]];
  }

  /** The file names of the documents. */
  function Sources(docs: seq<Document>): set<string>
  {
    set d | d in docs :: d.source
  }

  /** A chunk's id is its source followed by some chunk index. */
  ghost predicate IdFromSource(c: Chunk)
  {
    exists n: nat :: c.chunkId == ChunkId(c.source, n)
  }

  lemma DocumentChunkOrigin(cfg: Config, content: string, source: string)
    ensures forall k :: 0 <= k < |DocumentChunks(cfg, content, source)| ==>
      && DocumentChunks(cfg, content, source)[k].source == source
      && IdFromSource(DocumentChunks(cfg, content, source)[k])
  {
    var texts := Stripped(Pieces(cfg, HeaderSections(content)));
    LabelKept(source, texts);
    var out := Label(source, texts);
    forall k | 0 <= k < |out| ensures out[k].source == source && IdFromSource(out[k]) {
      assert out[k].chunkId == ChunkId(out[k].source, Kept(texts)[k]);
    }
  }

  /** Every chunk of the corpus carries the name of one of the documents, and
      its id is built from that name. */
  lemma {:induction false} CorpusChunkOrigin(docs: seq<Document>)
    ensures forall k :: 0 <= k < |CorpusChunks(docs)| ==>
      CorpusChunks(docs)[k].source in Sources(docs) && IdFromSource(CorpusChunks(docs)[k])
  {
    if docs != [] {
      var front := docs[..|docs| - 1];
      var d := docs[|docs| - 1];
      CorpusChunkOrigin(front);
      DocumentChunkOrigin(DefaultConfig, d.content, d.source);
      SourcesStep(docs);
      var a, b := CorpusChunks(front), DocumentChunks(DefaultConfig, d.content, d.source);
      var all: seq<Chunk> := a + b;
      assert CorpusChunks(docs) == all;
      forall k | 0 <= k < |all|
        ensures all[k].source in Sources(docs) && IdFromSource(all[k])
      {
        if k < |a| {
          assert all[k] == a[k];
        } else {
          assert all[k] == b[k - |a|];
        }
      }
    }
  }

  /** Files in one directory have distinct names; with distinct names, no two
      chunks of the whole corpus share an id, so the store receives unique ids. */
  lemma {:induction false} CorpusIdsDistinct(docs: seq<Document>)
    requires forall i, j :: 0 <= i < j < |docs| ==> docs[i].source != docs[j].source
    ensures forall k, l :: 0 <= k < l < |CorpusChunks(docs)| ==>
      CorpusChunks(docs)[k].chunkId != CorpusChunks(docs)[l].chunkId
  {
    if docs != [] {
      var front := docs[..|docs| - 1];
      var d := docs[|docs| - 1];
      CorpusIdsDistinct(front);
      CorpusChunkOrigin(front);
      DocumentChunkOrigin(DefaultConfig, d.content, d.source);
      LabelIdsDistinct(d.source, Stripped(Pieces(DefaultConfig, HeaderSections(d.content))));
      var a, b := CorpusChunks(front), DocumentChunks(DefaultConfig, d.content, d.source);
      assert CorpusChunks(docs) == a + b;
      assert d.source !in Sources(front);
      forall k, l | 0 <= k < |a| && 0 <= l < |b| ensures a[k].chunkId != b[l].chunkId {
        var n1: nat :| a[k].chunkId == ChunkId(a[k].source, n1);
        var n2: nat :| b[l].chunkId == ChunkId(b[l].source, n2);
        if a[k].chunkId == b[l].chunkId {
          ChunkIdInjective(a[k].source, n1, b[l].source, n2);
        }
      }
    }
  }
}

=== FILE: prompt.dfy ===
/**
 * The grounding prompt sent to the generator: a fixed instruction preamble,
 * the retrieved contexts rendered as `[Source: …]` blocks in retrieval order,
 * and the question, verbatim.
 */
module Prompt {
  import opened Text

  /** One retrieved chunk: its text and the name of the file it came from. */
  datatype Context = Context(text: string, source: string)

  /** The phrase the model is told to answer with when the context does not
      hold the answer; `ask` returns the same phrase when nothing is retrieved. */
  const IDontKnow := "I don't know"

  /** Instruction 5, which quotes that phrase, split around the quotation. */
  const RuleHead := "5. If the answer is not explicitly present in the context, you MUST respond with \""
  const RuleTail := "\"\n"
  const AbstainRule := RuleHead + IDontKnow + RuleTail

  /** The instructions before and after instruction 5. */
  const PreambleHead :=
    "You are a helpful assistant answering questions about Clube de Regatas Vasco da Gama.\n\n"
    + "CRITICAL INSTRUCTIONS:\n"
    + "1. You MUST answer ONLY using the context provided below\n"
    + "2. The context below is AUTHORITATIVE and is the ONLY source of truth\n"
    + "3. DO NOT use any external knowledge or information you were trained on\n"
    + "4. DO NOT guess or make assumptions\n"
  const PreambleTail :=
    "6. Keep your answers concise and factual\n"
    + "7. When you provide an answer, cite which source document it came from\n\n"

  /** The instructions that open every prompt, up to the context section. */
  const Preamble: string := PreambleHead + AbstainRule + PreambleTail

  const ContextHeading := "CONTEXT:\n"
  const QuestionHeading := "\n\nQUESTION: "
  const AnswerHeading := "\n\nANSWER:"
  const BlockSeparator := "\n\n"
  /** The source line of a block, around the source name. */
  const SourceOpen := "[Source: "
  const SourceClose := "]\n"

  /** The rendering of one context: a source line, then the text. */
  function Block(ctx: Context): (r: string)
    ensures |r| == |SourceOpen| + |ctx.source| + |SourceClose| + |ctx.text|
    ensures r[..|SourceOpen|] == SourceOpen && r[|r| - |ctx.text|..] == ctx.text
    ensures r[|SourceOpen|..|SourceOpen| + |ctx.source|] == ctx.source
    ensures r[|SourceOpen| + |ctx.source|..|SourceOpen| + |ctx.source| + |SourceClose|] == SourceClose
  {
    SourceOpen + ctx.source + SourceClose + ctx.text
  }

  function Blocks(contexts: seq<Context>): (r: seq<string>)
    ensures |r| == |contexts| && forall k :: 0 <= k < |r| ==> r[k] == Block(contexts[k])
  {
    seq(|contexts|, k requires 0 <= k < |contexts| => Block(contexts[k]))
  }

  /** The context section: the blocks joined by blank lines. */
  function ContextSection(contexts: seq<Context>): string
  {
    Join(Blocks(contexts), BlockSeparator)
  }

  /** Where block `k` starts in the context section. */
  function BlockOffset(contexts: seq<Context>, k: nat): nat
    requires k <= |contexts|
  {
    JoinOffset(Blocks(contexts), BlockSeparator, k)
  }

  /** The context section holds every block whole, in retrieval order: block
      `k` sits at its offset, a blank line follows it when another block
      comes, and the next block starts strictly later. */
  lemma ContextSectionInOrder(contexts: seq<Context>, k: nat)
    requires k < |contexts|
    ensures InfixAt(Block(contexts[k]), ContextSection(contexts), BlockOffset(contexts, k))
    ensures k + 1 < |contexts| ==>
      && InfixAt(BlockSeparator, ContextSection(contexts), BlockOffset(contexts, k) + |Block(contexts[k])|)
      && BlockOffset(contexts, k + 1) == BlockOffset(contexts, k) + |Block(contexts[k])| + |BlockSeparator|
      && BlockOffset(contexts, k) < BlockOffset(contexts, k + 1)
    ensures k + 1 == |contexts| ==>
      |ContextSection(contexts)| == BlockOffset(contexts, k) + |Block(contexts[k])|
  {
    JoinPlaces(Blocks(contexts), BlockSeparator, k);
  }

  /** The prompt layout: the preamble, the context heading, the section, the
      question heading, the question exactly as given, and the answer cue,
      each at its place. */
  predicate Laid(r: string, preamble: string, section: string, question: string)
  {
    var c, q, a := |ContextHeading|, |QuestionHeading|, |AnswerHeading|;
    && |r| == |preamble| + c + |section| + q + |question| + a
    && r[..|preamble|] == preamble
    && r[|preamble|..|preamble| + c] == ContextHeading
    && r[|preamble| + c..|preamble| + c + |section|] == section
    && r[|r| - a - |question| - q..|r| - a - |question|] == QuestionHeading
    && r[|r| - a - |question|..|r| - a] == question
    && r[|r| - a..] == AnswerHeading
  }

  /** The prompt around a given preamble and context section, in the layout
      `Laid` describes. */
  function Assemble(preamble: string, section: string, question: string): (r: string)
    ensures Laid(r, preamble, section, question)
  {
    var p := preamble + ContextHeading + section + QuestionHeading + question + AnswerHeading;
    PromptParts(preamble, ContextHeading, section, QuestionHeading, question, AnswerHeading);
    p
  }

  /** `build_prompt(question, contexts)`: the fixed preamble, the context
      section of the contexts and the question as given, laid out by
      `Assemble`. */
  function BuildPrompt(question: string, contexts: seq<Context>): (r: string)
    ensures Laid(r, Preamble, ContextSection(contexts), question)
  {
    Assemble(Preamble, ContextSection(contexts), question)
  }

  lemma PromptParts(a: string, b: string, c: string, d: string, e: string, f: string)
    ensures var p := a + b + c + d + e + f;
      && |p| == |a| + |b| + |c| + |d| + |e| + |f|
      && p[..|a|] == a
      && p[|a|..|a| + |b|] == b
      && p[|a| + |b|..|a| + |b| + |c|] == c
      && p[|a| + |b| + |c|..|a| + |b| + |c| + |d|] == d
      && p[|p| - |f| - |e|..|p| - |f|] == e
      && p[|p| - |f|..] == f
  {
  }

  /** Whatever follows the preamble, what the preamble contains the
      assembled prompt contains at the same place. */
  lemma AssembleKeepsPreamble(p: string, preamble: string, section: string, question: string, k: int)
    requires InfixAt(p, preamble, k)
    ensures InfixAt(p, Assemble(preamble, section, question), k)
  {
    var r := Assemble(preamble, section, question);
    assert r[k..k + |p|] == r[..|preamble|][k..k + |p|];
  }

  /** The preamble quotes the abstention phrase inside instruction 5. */
  lemma PreambleQuotesIDontKnow()
    ensures InfixAt(IDontKnow, Preamble, |PreambleHead| + |RuleHead|)
  {
    InfixBetween(IDontKnow, RuleHead, RuleTail);
    InfixShift(IDontKnow, AbstainRule, PreambleHead, PreambleTail, |RuleHead|);
  }

  /** Every prompt tells the model to answer "I don't know" when the context
      does not hold the answer, whatever the question and the contexts. */
  lemma PromptDemandsIDontKnow(question: string, contexts: seq<Context>)
    ensures IsInfix(IDontKnow, BuildPrompt(question, contexts))
  {
    var k := |PreambleHead| + |RuleHead|;
    PreambleQuotesIDontKnow();
    AssembleKeepsPreamble(IDontKnow, Preamble, ContextSection(contexts), question, k);
  }

  /** Two prompts that are equal over the same preamble, with questions of
      the same length, have the same question and the same context section. */
  lemma AssembleInjective(preamble: string, s1: string, q1: string, s2: string, q2: string)
    requires Assemble(preamble, s1, q1) == Assemble(preamble, s2, q2)
    requires |q1| == |q2|
    ensures q1 == q2 && s1 == s2
  {
  }

  /** Without the question's length the prompt does not say where the
      question starts: a context section that itself holds the question
      heading gives the same text as a question that does. */
  lemma AssembleAmbiguous(preamble: string, section: string, rest: string, question: string)
    ensures Assemble(preamble, section + QuestionHeading + rest, question)
      == Assemble(preamble, section, rest + QuestionHeading + question)
  {
  }

  /** The prompt is determined by the question and the contexts, and, given
      the question's length, the question can be read back from it (without
      the length it cannot: `AssembleAmbiguous`). */
  lemma PromptRecoversQuestion(q1: string, c1: seq<Context>, q2: string, c2: seq<Context>)
    requires BuildPrompt(q1, c1) == BuildPrompt(q2, c2)
    requires |q1| == |q2|
    ensures q1 == q2 && ContextSection(c1) == ContextSection(c2)
  {
    AssembleInjective(Preamble, ContextSection(c1), q1, ContextSection(c2), q2);
  }
}

=== FILE: query.dfy ===
/**
 * The question-answering side: the vector store's raw query result is turned
 * into contexts, the generator's HTTP outcome is classified into an answer or
 * an error, and `ask` puts the two around the prompt. The store and the
 * generator are inputs: the store's result is a parameter, the generator a
 * function from request to transport outcome.
 */
module Query {
  import opened Wrappers
  import opened Text
  import opened Prompt

  /** The base URL of the generator's server. */
  const OllamaBaseUrl := "http://localhost:11434"

  /** What the store's `query` returns for one query embedding: one row of
      documents and one row of metadata records per query embedding. */
  datatype QueryResults = QueryResults(
    documents: seq<seq<string>>,
    metadatas: seq<seq<map<string, string>>>)

  /** The errors `ask` can end with. */
  datatype QueryError =
    | MissingMetadataRow           // `results['metadatas'][0]` on an empty list
    | ConnectionFailed             // the generator's server could not be reached
    | ModelNotFound(model: string) // the server answered 404
    | HttpFailure(status: int)     // any other 4xx or 5xx status, re-raised as is
    | RequestFailed                // another transport error, such as a read timeout
    | MalformedReply               // the body is not a JSON object with a string `response`

  /** The source recorded in a metadata record, or "unknown" without one. */
  function SourceOf(metadata: map<string, string>): (r: string)
    ensures "source" in metadata ==> r == metadata["source"]
    ensures "source" !in metadata ==> r == "unknown"
  {
    if "source" in metadata then metadata["source"] else "unknown"
  }

  /** The contexts of a query result: none when the first document row is
      missing or empty; otherwise the first document row zipped with the
      first metadata row (as long as the shorter of the two), which fails when
      there is no metadata row at all. */
  function Contexts(results: QueryResults): (r: Result<seq<Context>, QueryError>)
    ensures r.Failure? <==> results.documents != [] && results.documents[0] != [] && results.metadatas == []
    ensures r.Failure? ==> r.error == MissingMetadataRow
    ensures r.Success? && (results.documents == [] || results.documents[0] == []) ==> r.value == []
    ensures r.Success? && results.documents != [] && results.documents[0] != [] ==>
      var docs, metas := results.documents[0], results.metadatas[0];
      && |r.value| == Min(|docs|, |metas|)
      && forall k :: 0 <= k < |r.value| ==> r.value[k] == Context(docs[k], SourceOf(metas[k]))
  {
    if results.documents == [] || results.documents[0] == [] then Success([])
    else if results.metadatas == [] then Failure(MissingMetadataRow)
    else
      var docs, metas := results.documents[0], results.metadatas[0];
      Success(seq(Min(|docs|, |metas|), k requires 0 <= k < Min(|docs|, |metas|) => Context(docs[k], SourceOf(metas[k]))))
  }

  /** `retrieve_context` after the store query: the append loop over the
      zipped rows. */
  method RetrieveContext(results: QueryResults) returns (r: Result<seq<Context>, QueryError>)
    ensures r == Contexts(results)
  {
    var contexts := [];
    if results.documents != [] && results.documents[0] != [] {
      if results.metadatas == [] {
        return Failure(MissingMetadataRow);
      }
      var docs, metas := results.documents[0], results.metadatas[0];
      var n := if |docs| <= |metas| then |docs| else |metas|;
      for i := 0 to n
        invariant |contexts| == i
        invariant forall k :: 0 <= k < i ==> contexts[k] == Context(docs[k], SourceOf(metas[k]))
      {
        var metadata := metas[i];
        var source := if "source" in metadata then metadata["source"] else "unknown";
        contexts := contexts + [Context(docs[i], source)];
      }
      assert n == Min(|docs|, |metas|);
      assert contexts == Contexts(results).value;
    }
    r := Success(contexts);
  }

  /** A JSON value as far as the reply's `response` field matters. */
  datatype Json = JString(s: string) | JOther

  /** The body of an HTTP reply. */
  datatype Body = NotJson | NotAnObject | JsonObject(fields: map<string, Json>)

  /** How the generate request ended, as seen by the HTTP client. */
  datatype Transport =
    | ConnectError            // refused, unreachable, or connect timeout
    | OtherTransportError     // read timeout and the other client errors
    | Reply(status: int, body: Body)

  /** The request `call_ollama` posts: non-streaming generation of `prompt`
      with `model`. */
  datatype Request = Request(url: string, model: string, prompt: string, stream: bool)

  function GenerateRequest(model: string, prompt: string): Request
  {
    Request(OllamaBaseUrl + "/api/generate", model, prompt, false)
  }

  /** An error status for the HTTP client's `raise_for_status`. */
  predicate IsErrorStatus(status: int) { 400 <= status < 600 }

  /** `call_ollama`'s outcome: connection failures and 404 are translated,
      other error statuses and transport errors propagate, and a good reply
      yields its `response` field stripped, or "" when the field is absent. */
  function Classify(model: string, outcome: Transport): (r: Result<string, QueryError>)
    ensures r == Failure(ConnectionFailed) <==> outcome.ConnectError?
    ensures r == Failure(ModelNotFound(model)) <==> outcome.Reply? && outcome.status == 404
    ensures (r.Failure? && r.error.HttpFailure?) <==>
      outcome.Reply? && IsErrorStatus(outcome.status) && outcome.status != 404
    ensures r.Failure? && r.error.HttpFailure? ==> r.error.status == outcome.status
    ensures outcome.OtherTransportError? ==> r == Failure(RequestFailed)
    ensures outcome.Reply? && !IsErrorStatus(outcome.status) && !r.Success? ==> r == Failure(MalformedReply)
    ensures r.Success? <==>
      && outcome.Reply? && !IsErrorStatus(outcome.status) && outcome.body.JsonObject?
      && ("response" in outcome.body.fields ==> outcome.body.fields["response"].JString?)
    ensures r.Success? && "response" !in outcome.body.fields ==> r.value == ""
    ensures r.Success? && "response" in outcome.body.fields ==>
      r.value == Strip(outcome.body.fields["response"].s)
  {
    match outcome
    case ConnectError => Failure(ConnectionFailed)
    case OtherTransportError => Failure(RequestFailed)
    case Reply(status, body) =>
      if IsErrorStatus(status) then
        if status == 404 then Failure(ModelNotFound(model)) else Failure(HttpFailure(status))
      else
        match body
        case NotJson => Failure(MalformedReply)
        case NotAnObject => Failure(MalformedReply)
        case JsonObject(fields) =>
          if "response" !in fields then Success("")
          else
            match fields["response"]
            case JString(text) => Success(Strip(text))
            case JOther => Failure(MalformedReply)
  }

  /** A generated answer never starts or ends with whitespace, and stripping
      it again changes nothing. */
  lemma AnswerIsStripped(model: string, outcome: Transport)
    requires Classify(model, outcome).Success?
    ensures var a := Classify(model, outcome).value;
      (a == [] || (!IsSpace(a[0]) && !IsSpace(a[|a| - 1]))) && Strip(a) == a
  {
    StripFixes(Classify(model, outcome).value);
  }

  /** The reply of `ask`. */
  datatype Answer = Answer(answer: string, sources: seq<string>)

  predicate NoDuplicates(xs: seq<string>)
  {
    forall i, j :: 0 <= i < j < |xs| ==> xs[i] != xs[j]
  }

  /** One duplicate-free listing of the elements of `xs` (the last occurrence
      of each, in order). */
  function Distinct(xs: seq<string>): (r: seq<string>)
    ensures NoDuplicates(r)
    ensures forall x :: x in r <==> x in xs
  {
    if xs == [] then []
    else
      var rest := Distinct(xs[1..]);
      if xs[0] in xs[1..] then rest
      else
        assert xs[0] !in rest;
        [xs[0]] + rest
  }

  function SourceList(contexts: seq<Context>): (r: seq<string>)
    ensures |r| == |contexts| && forall k :: 0 <= k < |r| ==> r[k] == contexts[k].source
  {
    seq(|contexts|, k requires 0 <= k < |contexts| => contexts[k].source)
  }

  /** `ask` once the contexts are retrieved. Without contexts it answers
      "I don't know" with no sources and never consults the generator;
      otherwise the answer (or the error) is the generator's on the prompt for
      the question and the contexts, and the sources are the contexts' sources
      without repetition. */
  function Ask(model: string, question: string, contexts: seq<Context>, generate: Request -> Transport): (r: Result<Answer, QueryError>)
    ensures contexts == [] ==> r == Success(Answer(IDontKnow, []))
    ensures contexts != [] ==>
      var outcome := Classify(model, generate(GenerateRequest(model, BuildPrompt(question, contexts))));
      && (r.Success? <==> outcome.Success?)
      && (r.Success? ==> r.value.answer == outcome.value)
      && (r.Failure? ==> r.error == outcome.error)
    ensures r.Success? ==> NoDuplicates(r.value.sources)
    ensures r.Success? ==> forall s :: s in r.value.sources <==> exists k :: 0 <= k < |contexts| && contexts[k].source == s
  {
    if contexts == [] then Success(Answer(IDontKnow, []))
    else
      var prompt := BuildPrompt(question, contexts);
      match Classify(model, generate(GenerateRequest(model, prompt)))
      case Failure(e) => Failure(e)
      case Success(answer) =>
        Success(Answer(answer, AnswerSources(contexts)))
  }

  /** `list(set(ctx["source"] for ctx in contexts))`: each source of a
      retrieved context, once. */
  function AnswerSources(contexts: seq<Context>): (r: seq<string>)
    ensures NoDuplicates(r)
    ensures forall s :: s in r <==> exists k :: 0 <= k < |contexts| && contexts[k].source == s
  {
    var sources := Distinct(SourceList(contexts));
    assert forall s :: s in sources <==> exists k :: 0 <= k < |contexts| && contexts[k].source == s by {
      forall s ensures s in sources <==> exists k :: 0 <= k < |contexts| && contexts[k].source == s {
        if s in sources {
          var k :| 0 <= k < |SourceList(contexts)| && SourceList(contexts)[k] == s;
        }
      }
    }
    sources
  }

  /** `ask(question)`: retrieve the contexts from the store's result for the
      question, then answer from them. */
  method AskQuestion(model: string, question: string, results: QueryResults, generate: Request -> Transport)
    returns (r: Result<Answer, QueryError>)
    ensures Contexts(results).Failure? ==> r == Failure(MissingMetadataRow)
    ensures Contexts(results).Success? ==> r == Ask(model, question, Contexts(results).value, generate)
  {
    var contexts := RetrieveContext(results);
    if contexts.Failure? {
      return Failure(contexts.error);
    }
    r := Ask(model, question, contexts.value, generate);
  }

  /** A generator stub whose reply is always `{"response": "1898"}`. */
  function Echo1898(request: Request): Transport
  {
    Reply(200, JsonObject(map["response" := JString("1898")]))
  }

  /** One retrieved context from `history.md` and a generator that answers
      "1898": the answer is "1898" and the only source is `history.md`. */
  lemma FoundingYearScenario(model: string, question: string)
    ensures Ask(model, question, [Context("Vasco foi fundado em 1898.", "history.md")], Echo1898)
      == Success(Answer("1898", ["history.md"]))
  {
    var contexts := [Context("Vasco foi fundado em 1898.", "history.md")];
    EchoAnswers(model, GenerateRequest(model, BuildPrompt(question, contexts)));
    OneContextSources(contexts[0]);
  }

  lemma EchoAnswers(model: string, request: Request)
    ensures Classify(model, Echo1898(request)) == Success("1898")
  {
    ReplyAnswers(model, "1898");
    assert Strip("1898") == "1898" by {
      StripFixes("1898");
    }
  }

  /** A good reply with a string `response` answers that string stripped. */
  lemma ReplyAnswers(model: string, text: string)
    ensures Classify(model, Reply(200, JsonObject(map["response" := JString(text)]))) == Success(Strip(text))
  {
    var fields := map["response" := JString(text)];
    assert "response" in fields && fields["response"] == JString(text);
  }

  lemma OneContextSources(c: Context)
    ensures AnswerSources([c]) == [c.source]
  {
    assert SourceList([c]) == [c.source];
    assert [c.source][1..] == [];
    assert Distinct([c.source]) == [c.source];
  }

  /** A generator that does not know the model makes `ask` fail with the
      model-not-found error, whatever the contexts. */
  lemma UnknownModelScenario(model: string, question: string, contexts: seq<Context>)
    requires contexts != []
    ensures Ask(model, question, contexts, (request: Request) => Reply(404, NotJson)) == Failure(ModelNotFound(model))
  {
  }
}

=== FILE: text.dfy ===
/**
 * The string primitives the chunker and the prompt builder rely on, stated with
 * Python's meaning: `str.strip()`, `str.join`, `str.split(sep)` and the decimal
 * rendering of a non-negative `int` inside an f-string.
 */
module Text {
  import opened Wrappers

  /** The characters for which Python's `str.isspace()` holds; the same set is
      used by `str.strip()` and by `\s` in a `str` regular expression. */
  predicate IsSpace(c: char) {
    var n := c as int;
    || (0x09 <= n <= 0x0D) || (0x1C <= n <= 0x20)
    || n == 0x85 || n == 0xA0 || n == 0x1680
    || (0x2000 <= n <= 0x200A) || n == 0x2028 || n == 0x2029
    || n == 0x202F || n == 0x205F || n == 0x3000
  }

  function Min(a: int, b: int): int { if a <= b then a else b }

  /** Every character of `s` is whitespace (the empty string included). */
  predicate Blank(s: string) {
    forall i :: 0 <= i < |s| ==> IsSpace(s[i])
  }

  /** `p` occurs in `s` starting at index `k`. */
  predicate InfixAt(p: string, s: string, k: int) {
    0 <= k && k + |p| <= |s| && s[k..k + |p|] == p
  }

  /** `p` occurs as a contiguous piece of `s`. */
  predicate IsInfix(p: string, s: string) {
    exists k :: 0 <= k <= |s| && InfixAt(p, s, k)
  }

  /** Drops leading whitespace (`str.lstrip()`). */
  function TrimStart(s: string): (r: string)
    ensures |r| <= |s| && r == s[|s| - |r|..]
    ensures forall i :: 0 <= i < |s| - |r| ==> IsSpace(s[i])
    ensures r == [] || !IsSpace(r[0])
  {
    if s != [] && IsSpace(s[0]) then TrimStart(s[1..]) else s
  }

  /** Drops trailing whitespace (`str.rstrip()`). */
  function TrimEnd(s: string): (r: string)
    ensures |r| <= |s| && r == s[..|r|]
    ensures forall i :: |r| <= i < |s| ==> IsSpace(s[i])
    ensures r == [] || !IsSpace(r[|r| - 1])
  {
    if s != [] && IsSpace(s[|s| - 1]) then TrimEnd(s[..|s| - 1]) else s
  }

  /** Python's `str.strip()`: the text between the leading and the trailing
      whitespace. What is left starts and ends with a non-space character;
      `StripSound` says what was cut. */
  function Strip(s: string): (r: string)
    ensures |r| <= |s|
    ensures r != [] ==> !IsSpace(r[0]) && !IsSpace(r[|r| - 1])
  {
    var t := TrimStart(s);
    var r := TrimEnd(t);
    TrimmedEnds(t, r);
    r
  }

  /** The stripped text is a contiguous piece of the input, what was cut
      before and after it is whitespace, and it is empty exactly when the
      input is blank. */
  lemma StripSound(s: string)
    ensures IsInfix(Strip(s), s)
    ensures exists k :: InfixAt(Strip(s), s, k) && Blank(s[..k]) && Blank(s[k + |Strip(s)|..])
    ensures Strip(s) == [] <==> Blank(s)
  {
    var t := TrimStart(s);
    TrimmedIsInfix(s, t, Strip(s));
    StripCuts(s);
    TrimmedEmptyIffBlank(s, t, Strip(s));
  }

  lemma StripCuts(s: string)
    ensures exists k :: InfixAt(Strip(s), s, k) && Blank(s[..k]) && Blank(s[k + |Strip(s)|..])
  {
    var t := TrimStart(s);
    CutsAround(s, t, Strip(s), |s| - |t|);
  }

  lemma TrimmedEnds(t: string, r: string)
    requires t == [] || !IsSpace(t[0])
    requires r == TrimEnd(t)
    ensures r != [] ==> !IsSpace(r[0]) && !IsSpace(r[|r| - 1])
  {
    if r != [] {
      assert r[0] == t[0];
    }
  }

  lemma TrimmedIsInfix(s: string, t: string, r: string)
    requires t == TrimStart(s) && r == TrimEnd(t)
    ensures IsInfix(r, s)
  {
    var k := |s| - |t|;
    assert t == s[k..];
    assert r == t[..|r|];
    assert s[k..k + |r|] == r;
    assert InfixAt(r, s, k);
  }

  /** A prefix `r` of the suffix `t` of `s` starting at `k`, with only
      whitespace before `k` and after `r` in `t`, sits between two blank cuts. */
  lemma CutsAround(s: string, t: string, r: string, k: nat)
    requires k <= |s| && t == s[k..] && |r| <= |t| && r == t[..|r|]
    requires forall i :: 0 <= i < k ==> IsSpace(s[i])
    requires forall i :: |r| <= i < |t| ==> IsSpace(t[i])
    ensures InfixAt(r, s, k) && Blank(s[..k]) && Blank(s[k + |r|..])
  {
    assert s[k..k + |r|] == r;
    forall i | 0 <= i < k ensures IsSpace(s[..k][i]) {
      assert s[..k][i] == s[i];
    }
    var tail := s[k + |r|..];
    forall i | 0 <= i < |tail| ensures IsSpace(tail[i]) {
      assert tail[i] == t[|r| + i];
    }
  }

  lemma TrimmedEmptyIffBlank(s: string, t: string, r: string)
    requires t == TrimStart(s) && r == TrimEnd(t)
    ensures r == [] <==> Blank(s)
  {
    if r == [] {
      // TrimStart left no leading space and TrimEnd removed only spaces,
      // so nothing was left after the leading whitespace.
      assert t == [];
    }
  }

  /** A text that neither starts nor ends with whitespace is its own stripped
      form. */
  lemma StripFixes(t: string)
    requires t == [] || (!IsSpace(t[0]) && !IsSpace(t[|t| - 1]))
    ensures Strip(t) == t
  {
    assert TrimStart(t) == t;
    assert TrimEnd(t) == t;
  }

  /** Stripping is idempotent. */
  lemma StripIdempotent(s: string)
    ensures Strip(Strip(s)) == Strip(s)
  {
    StripFixes(Strip(s));
  }

  /** An occurrence of `u` inside an occurrence of `p` is an occurrence in
      the enclosing text. */
  lemma InfixCompose(u: string, p: string, x: string, a: int, k: int)
    requires InfixAt(u, p, a) && InfixAt(p, x, k)
    ensures InfixAt(u, x, k + a)
  {
    forall i | 0 <= i < |u| ensures x[k + a..k + a + |u|][i] == u[i] {
      assert x[k + a + i] == x[k..k + |p|][a + i] == p[a + i] == p[a..a + |u|][i];
    }
  }

  /** Where `Strip(s)` sits in `s`, with only whitespace before and after it. */
  lemma StripAt(s: string) returns (k: nat)
    ensures InfixAt(Strip(s), s, k)
    ensures forall i :: 0 <= i < k ==> IsSpace(s[i])
    ensures forall i :: k + |Strip(s)| <= i < |s| ==> IsSpace(s[i])
  {
    var t := TrimStart(s);
    var r := Strip(s);
    k := |s| - |t|;
    assert r == TrimEnd(t) && r == t[..|r|];
    assert s[k..k + |r|] == r;
    forall i | k + |r| <= i < |s| ensures IsSpace(s[i]) {
      assert s[i] == t[i - k];
    }
  }

  /** A piece `u` of `x` that starts and ends with a non-space character lies
      within any piece `t` of `x` that only whitespace surrounds. */
  lemma InfixWithin(u: string, t: string, x: string, e: int, c: int)
    requires InfixAt(u, x, e) && InfixAt(t, x, c)
    requires u != [] && !IsSpace(u[0]) && !IsSpace(u[|u| - 1])
    requires forall i :: 0 <= i < c ==> IsSpace(x[i])
    requires forall i :: c + |t| <= i < |x| ==> IsSpace(x[i])
    ensures InfixAt(u, t, e - c)
  {
    assert x[e] == x[e..e + |u|][0] == u[0];
    assert x[e + |u| - 1] == x[e..e + |u|][|u| - 1] == u[|u| - 1];
    assert c <= e && e + |u| <= c + |t|;
    forall i | 0 <= i < |u| ensures t[e - c..e - c + |u|][i] == u[i] {
      assert t[e - c + i] == x[c..c + |t|][e - c + i] == x[e + i] == x[e..e + |u|][i];
    }
  }

  /** Stripping keeps a non-blank piece inside the stripped whole: if `p`
      occurs in `x` and is not blank, `Strip(p)` occurs in `Strip(x)`. */
  lemma StripInfix(p: string, x: string)
    requires IsInfix(p, x) && Strip(p) != ""
    ensures IsInfix(Strip(p), Strip(x))
  {
    var k :| 0 <= k <= |x| && InfixAt(p, x, k);
    var j := StripInfixAt(p, x, k);
  }

  lemma StripInfixAt(p: string, x: string, k: int) returns (j: int)
    requires InfixAt(p, x, k) && Strip(p) != ""
    ensures 0 <= j <= |Strip(x)| && InfixAt(Strip(p), Strip(x), j)
  {
    var u, t := Strip(p), Strip(x);
    assert IsInfix(u, p) by {
      var a0 := StripAt(p);
    }
    var a :| 0 <= a <= |p| && InfixAt(u, p, a);
    var c := StripAt(x);
    j := InfixInside(u, p, t, x, a, k, c);
  }

  /** A piece `u` of a piece `p` of `x`, starting and ending with a non-space
      character, lies within any piece `t` of `x` that only whitespace
      surrounds. */
  lemma InfixInside(u: string, p: string, t: string, x: string, a: int, k: int, c: int) returns (j: int)
    requires InfixAt(u, p, a) && InfixAt(p, x, k) && InfixAt(t, x, c)
    requires u != [] && !IsSpace(u[0]) && !IsSpace(u[|u| - 1])
    requires forall i :: 0 <= i < c ==> IsSpace(x[i])
    requires forall i :: c + |t| <= i < |x| ==> IsSpace(x[i])
    ensures 0 <= j <= |t| && InfixAt(u, t, j)
  {
    InfixCompose(u, p, x, a, k);
    InfixWithin(u, t, x, k + a, c);
    j := k + a - c;
  }

  /** Python's `sep.join(parts)`. */
  function Join(parts: seq<string>, sep: string): string
  {
    if |parts| == 0 then ""
    else if |parts| == 1 then parts[0]
    else parts[0] + sep + Join(parts[1..], sep)
  }

  /** Where `parts[k]` starts in `Join(parts, sep)`: the lengths of the
      earlier parts, each followed by one separator. */
  function JoinOffset(parts: seq<string>, sep: string, k: nat): nat
    requires k <= |parts|
  {
    if k == 0 then 0 else |parts[0]| + |sep| + JoinOffset(parts[1..], sep, k - 1)
  }

  lemma InfixShift(p: string, s: string, a: string, b: string, k: int)
    requires InfixAt(p, s, k)
    ensures InfixAt(p, a + s + b, |a| + k)
  {
    assert (a + s + b)[|a| + k..|a| + k + |p|] == s[k..k + |p|];
  }

  lemma InfixBetween(p: string, a: string, b: string)
    ensures InfixAt(p, a + p + b, |a|)
  {
    assert (a + p + b)[|a|..|a| + |p|] == p;
  }

  /** Every part appears whole in the joined text, at its offset, and
      consecutive parts are separated by exactly one `sep`: joining keeps the
      parts, their contents and their order. */
  lemma {:induction false} JoinPlaces(parts: seq<string>, sep: string, k: nat)
    requires k < |parts|
    ensures InfixAt(parts[k], Join(parts, sep), JoinOffset(parts, sep, k))
    ensures k + 1 < |parts| ==> InfixAt(sep, Join(parts, sep), JoinOffset(parts, sep, k) + |parts[k]|)
    ensures k + 1 < |parts| ==> JoinOffset(parts, sep, k + 1) == JoinOffset(parts, sep, k) + |parts[k]| + |sep|
    ensures k + 1 == |parts| ==> |Join(parts, sep)| == JoinOffset(parts, sep, k) + |parts[k]|
  {
    if k == 0 {
      JoinFirst(parts, sep);
    } else {
      JoinPlaces(parts[1..], sep, k - 1);
      JoinShift(parts, sep, k);
    }
  }

  lemma JoinFirst(parts: seq<string>, sep: string)
    requires |parts| > 0
    ensures InfixAt(parts[0], Join(parts, sep), 0)
    ensures |parts| > 1 ==> InfixAt(sep, Join(parts, sep), |parts[0]|)
    ensures |parts| > 1 ==> JoinOffset(parts, sep, 1) == |parts[0]| + |sep|
    ensures |parts| == 1 ==> |Join(parts, sep)| == |parts[0]|
  {
    if |parts| > 1 {
      var j := Join(parts, sep);
      assert j == parts[0] + sep + Join(parts[1..], sep);
      assert j[..|parts[0]|] == parts[0];
      assert j[|parts[0]|..|parts[0]| + |sep|] == sep;
    }
  }

  /** The places of `parts[k]` in the join, from those of `parts[1..][k - 1]`. */
  lemma JoinShift(parts: seq<string>, sep: string, k: nat)
    requires 1 <= k < |parts|
    requires var rest := parts[1..];
      && InfixAt(rest[k - 1], Join(rest, sep), JoinOffset(rest, sep, k - 1))
      && (k < |rest| ==> InfixAt(sep, Join(rest, sep), JoinOffset(rest, sep, k - 1) + |rest[k - 1]|))
      && (k < |rest| ==> JoinOffset(rest, sep, k) == JoinOffset(rest, sep, k - 1) + |rest[k - 1]| + |sep|)
      && (k == |rest| ==> |Join(rest, sep)| == JoinOffset(rest, sep, k - 1) + |rest[k - 1]|)
    ensures InfixAt(parts[k], Join(parts, sep), JoinOffset(parts, sep, k))
    ensures k + 1 < |parts| ==> InfixAt(sep, Join(parts, sep), JoinOffset(parts, sep, k) + |parts[k]|)
    ensures k + 1 < |parts| ==> JoinOffset(parts, sep, k + 1) == JoinOffset(parts, sep, k) + |parts[k]| + |sep|
    ensures k + 1 == |parts| ==> |Join(parts, sep)| == JoinOffset(parts, sep, k) + |parts[k]|
  {
    var rest := parts[1..];
    var j := Join(parts, sep);
    var head := parts[0] + sep;
    assert j == head + Join(rest, sep);
    assert rest[k - 1] == parts[k];
    InfixShift(parts[k], Join(rest, sep), head, "", JoinOffset(rest, sep, k - 1));
    assert head + Join(rest, sep) + "" == j;
    if k + 1 < |parts| {
      InfixShift(sep, Join(rest, sep), head, "", JoinOffset(rest, sep, k - 1) + |parts[k]|);
    }
  }

  lemma ConcatAssoc<T>(a: seq<T>, b: seq<T>, c: seq<T>)
    ensures (a + b) + c == a + (b + c)
  {
  }

  /** Concatenation of a sequence of sequences (`"".join(parts)` on strings). */
  function Flatten<T>(parts: seq<seq<T>>): seq<T>
  {
    if parts == [] then [] else parts[0] + Flatten(parts[1..])
  }

  lemma {:induction false} FlattenConcat<T>(a: seq<seq<T>>, b: seq<seq<T>>)
    ensures Flatten(a + b) == Flatten(a) + Flatten(b)
  {
    if a == [] {
      assert a + b == b;
    } else {
      assert (a + b)[0] == a[0];
      assert (a + b)[1..] == a[1..] + b;
      FlattenConcat(a[1..], b);
    }
  }

  /** `sep` occurs in `s` starting at index `k`. */
  predicate OccursAt(s: string, sep: string, k: int) {
    0 <= k && k + |sep| <= |s| && s[k..k + |sep|] == sep
  }

  /** `s.find(sep, from)`: the leftmost occurrence of `sep` at or after `from`. */
  function FindFrom(s: string, sep: string, from: nat): (r: Option<nat>)
    requires from <= |s|
    ensures r.Some? ==> from <= r.value && OccursAt(s, sep, r.value)
    ensures r.Some? ==> forall k :: from <= k < r.value ==> !OccursAt(s, sep, k)
    ensures r.None? ==> forall k :: from <= k ==> !OccursAt(s, sep, k)
    decreases |s| - from
  {
    if from + |sep| > |s| then None
    else if s[from..from + |sep|] == sep then Some(from)
    else FindFrom(s, sep, from + 1)
  }

  /** Python's `s.split(sep)` for a non-empty separator: the pieces between the
      non-overlapping occurrences of `sep`, scanned from the left. Joining them
      back with `sep` gives `s`, and no piece contains `sep`. */
  function SplitOn(s: string, sep: string): (r: seq<string>)
    requires |sep| > 0
    ensures |r| >= 1
    ensures Join(r, sep) == s
    ensures forall i, k :: 0 <= i < |r| ==> !OccursAt(r[i], sep, k)
    decreases |s|
  {
    match FindFrom(s, sep, 0)
    case None => [s]
    case Some(i) =>
      var head := s[..i];
      var rest := SplitOn(s[i + |sep|..], sep);
      assert forall k :: !OccursAt(head, sep, k) by {
        forall k | OccursAt(head, sep, k) ensures false {
          assert s[k..k + |sep|] == head[k..k + |sep|];
          assert OccursAt(s, sep, k);
        }
      }
      assert s == head + sep + s[i + |sep|..];
      [head] + rest
  }

  /** The cut is at the leftmost occurrence: in every piece but the last,
      followed by its separator, the first occurrence of `sep` is that
      separator. */
  lemma {:induction false} SplitOnLeftmost(s: string, sep: string)
    requires |sep| > 0
    ensures forall i, k :: 0 <= i < |SplitOn(s, sep)| - 1 && 0 <= k < |SplitOn(s, sep)[i]| ==>
      !OccursAt(SplitOn(s, sep)[i] + sep, sep, k)
    decreases |s|
  {
    match FindFrom(s, sep, 0)
    case None =>
    case Some(i) =>
      var head, tail := s[..i], s[i + |sep|..];
      var r, rest := SplitOn(s, sep), SplitOn(tail, sep);
      assert r == [head] + rest;
      SplitOnLeftmost(tail, sep);
      forall j, k | 0 <= j < |r| - 1 && 0 <= k < |r[j]|
        ensures !OccursAt(r[j] + sep, sep, k)
      {
        if j == 0 {
          assert r[j] == head && |head| == i;
          assert (head + sep)[k..k + |sep|] == s[k..k + |sep|];
          assert !OccursAt(s, sep, k);
        } else {
          assert r[j] == rest[j - 1];
        }
      }
  }

  /** Every piece of a blank text split on any separator is blank. */
  lemma {:induction false} SplitOnBlank(s: string, sep: string)
    requires |sep| > 0 && Blank(s)
    ensures forall i :: 0 <= i < |SplitOn(s, sep)| ==> Blank(SplitOn(s, sep)[i])
    decreases |s|
  {
    match FindFrom(s, sep, 0)
    case None =>
    case Some(i) =>
      var rest := s[i + |sep|..];
      assert Blank(rest);
      SplitOnBlank(rest, sep);
      assert SplitOn(s, sep) == [s[..i]] + SplitOn(rest, sep);
  }

  predicate IsDigit(c: char) {
    '0' <= c <= '9'
  }

  predicate AllDigits(s: string) {
    forall i :: 0 <= i < |s| ==> IsDigit(s[i])
  }

  /** The number a string of decimal digits denotes. */
  function DigitsValue(s: string): nat
    requires AllDigits(s)
  {
    if s == [] then 0
    else DigitsValue(s[..|s| - 1]) * 10 + (s[|s| - 1] as int - '0' as int)
  }

  /** The decimal rendering of `n` (what `f"{n}"` prints): a non-empty digit
      string, without a leading zero, that denotes `n` again. */
  function NatToString(n: nat): (r: string)
    ensures |r| >= 1 && AllDigits(r)
    ensures DigitsValue(r) == n
    ensures |r| > 1 ==> r[0] != '0'
  {
    var last := ('0' as int + n % 10) as char;
    if n < 10 then [last]
    else
      var front := NatToString(n / 10);
      assert (front + [last])[..|front|] == front;
      front + [last]
  }
}

=== FILE: wrappers.dfy ===
/** Option and Result, the failure-carrying wrappers used across the model. */
module Wrappers {

  datatype Option<+T> = None | Some(value: T)

  datatype Result<+R, +E> = Success(value: R) | Failure(error: E)
}
